=== FILE: README.md ===
# A Dafny model of the portfolio site's chat widget and page scripts

This project models the logic of four of the site's scripts as pure functions
over immutable records.

- `assets/js/chat-widget.js` is a floating chat panel. It tracks four things:
  - whether the panel is open (`isChatOpen`);
  - its `minimized` and `active` classes;
  - an in-flight guard (`isTyping`) that allows one request at a time;
  - a conversation id (`'web_user_' + Date.now()`), made at the first send and
    reused afterwards.

  Each message is posted to a webhook. The reply, or a fixed apology, is
  appended to the transcript. Every bubble's text has its `http(s)://` runs
  turned into anchors.
- `assets/js/smooth-scroll.js` and `assets/js/main.js` contain:
  - the nav link that lights up for the section in view (two different rules);
  - the anchor-click handlers;
  - the mobile menu;
  - the AOS options.
- `assets/js/animations.js` contains:
  - the class rules of the reveal-on-scroll observers;
  - the skill-bar fill;
  - the typing effect;
  - the per-character split.

Every DOM read a handler makes is a parameter: `offsetTop`, `offsetHeight`, a
bounding-box top, `scrollY`, `innerWidth`, and whether `querySelector` found a
target. The chat widget's two 500 ms timers, each firing of the typing
interval, every click and every network settlement are events. The other
timers are collapsed or left out, as "## Left out" says.

Modules:

- `Wrappers`: `Option`.
- `Text`: the ECMAScript whitespace set, `trim` and `trimStart`.
- `Decimal`: `String(n)` for integers and the global `parseInt`.
- `Linkify`: the URL regular-expression replacement, as a scan into segments
  followed by a rendering.
- `ChatWidget`: the widget.
  - `Widget` is one record and `Event` lists everything the widget reacts to.
  - `Step` runs the handler for one event, and `Run` replays a trace of events.
  - `Inv` is the invariant that every reachable state satisfies.
- `NavSections`: current-section selection and link highlighting.
- `Navigation`: the mobile menu, the three anchor handlers and the AOS options.
- `Reveal`: the class rules of the observers and the scroll handler, and the
  skill bars and character split.
- `Typing`: the typing effect and how it reads its `data-` attributes.

Two behaviours of the widget follow from the code and are easy to miss:

- The send control stays disabled after a reply. The settlement handler
  (`chat-widget.js` lines 483-508) never touches `disabled`. Only the `input`
  handler sets it, to "trimmed value is empty". The send cleared the input, so
  the control stays disabled until the user types again. `ChatWidget.Inv`
  states this.
- `minimized` is a class of its own, independent of `isChatOpen`. There is no
  separate minimized state of the panel:
  - a toggle click closes an open panel, minimized or not, and closing leaves
    `minimized` as it was (`ChatWidget.ToggleClosesMinimizedPanel`);
  - the minimize control only ever adds the class
    (`ChatWidget.MinimizeClickOnlyMinimizes`).

## Model

| member | source | states |
|---|---|---|
| `Text.TrimStart` | assets/js/animations.js:178-179 | the leading-whitespace skip `parseInt` makes: the result is the suffix of the input that starts at its first non-whitespace character; everything dropped is whitespace |
| `Text.Trim` | assets/js/chat-widget.js:451 | the result is a contiguous piece of the input with only whitespace outside it; it starts and ends with a non-space; it is empty exactly when the input is all whitespace |
| `Text.TrimIdempotent` | assets/js/chat-widget.js:391 | trimming twice gives the same result as trimming once |
| `Decimal.NatToString` | assets/js/chat-widget.js:468 | the decimal text of a natural number is non-empty, all digits, and has no leading zero |
| `Decimal.IntToString` | assets/js/chat-widget.js:468 | the text of an integer starts with `-` exactly when the integer is negative |
| `Decimal.ParseInt` | assets/js/animations.js:178-179 | text that is empty after leading whitespace, or starts with neither a digit nor a sign, reads as NaN; a leading decimal digit that does not open a `0x` prefix reads as a number of at least 0; a negative result needs a leading `-` |
| `Decimal.ParseIntReadsLeadingNumber` | assets/js/animations.js:178-179 | `parseInt` reads the integer at the front of the text and ignores what follows, so `"250ms"` gives 250; this holds when the next character is neither a digit nor an `x` |
| `Decimal.ParseIntOfIntToString` | assets/js/animations.js:178-179 | `parseInt` reads back exactly the integer that `String(n)` wrote, for every integer |
| `Decimal.IntToStringInjective` | assets/js/chat-widget.js:468 | distinct integers have distinct decimal texts |
| `Linkify.UrlLen` | assets/js/chat-widget.js:425 | a match of the pattern at the start of the text is a whole URL (scheme plus at least one non-space) and ends at whitespace or at the end of the text; the match is found whenever some prefix of the text is a URL, and is at least as long as every such prefix, as the greedy `[^\s]+` requires |
| `Linkify.Scan` | assets/js/chat-widget.js:425 | the segments spell out the text exactly; every link segment is a URL; every link is maximal (what follows it is whitespace) |
| `Linkify.UrlStartsAreLinked` | assets/js/chat-widget.js:425 | every position where the pattern matches lies inside some link segment, and the whole match from that position ends inside the same link, so no URL is left unwrapped |
| `Linkify.EveryUrlIsLinked` | assets/js/chat-widget.js:425 | every URL anywhere in the text lies inside one link segment, from its first character to its last |
| `Linkify.Render` | assets/js/chat-widget.js:425-427 | the markup is never shorter than the text it stands for; without links it is that text; each link makes it strictly longer |
| `Linkify.RenderCons` | assets/js/chat-widget.js:425-427 | the markup of a segment list is the first segment's markup (its anchor for a link, the character itself otherwise) followed by the markup of the rest |
| `Linkify.Linkified` | assets/js/chat-widget.js:425-427 | the bubble's markup is never shorter than its text, and is the text itself when the scan found no link |
| `Linkify.PlainPrefixIsKept` | assets/js/chat-widget.js:425-427 | text in which the pattern matches nowhere and that ends in whitespace is copied through unchanged, whatever follows it |
| `Linkify.UrlThenSpaceIsOneAnchor` | assets/js/chat-widget.js:425-427 | a URL followed by whitespace or by nothing becomes one anchor around it, and the text after it is formatted on its own |
| `Linkify.LinkifiedMixed` | assets/js/chat-widget.js:425-427 | for URL-free text `p` ending in whitespace, a URL `u` and text `q` starting with whitespace, the markup of `p + u + q` is `p`, then the anchor for `u`, then the markup of `q` |
| `Linkify.LinkifiedExample` | assets/js/chat-widget.js:425-427 | `"Visit https://example.com for more"` is shown as `"Visit "`, the anchor for `https://example.com`, then `" for more"` |
| `Linkify.LinkifiedUnchangedIffNoUrl` | assets/js/chat-widget.js:425 | a text is shown unchanged exactly when the pattern matches nowhere in it |
| `Linkify.LinkifiedWithoutUrl` | assets/js/chat-widget.js:425 | a text in which the pattern matches nowhere is shown unchanged |
| `Linkify.UrlLenOfUrl` | assets/js/chat-widget.js:425 | the pattern matches a whole URL in full |
| `Linkify.WholeUrlIsOneAnchor` | assets/js/chat-widget.js:425 | a text that is a single URL becomes one anchor whose `href` and text are both that URL |
| `ChatWidget.Init` | assets/js/chat-widget.js:317-359 | the page starts closed, minimized, with send disabled, not typing, no conversation id, and nothing shown or sent |
| `ChatWidget.EnsureSession` | assets/js/chat-widget.js:467-469 | an existing id is kept; a missing one becomes `'web_user_' + now` |
| `ChatWidget.Toggle` | assets/js/chat-widget.js:401-417 | `isChatOpen` flips and both `active` classes follow it; opening clears `minimized`, closing leaves it; nothing else changes |
| `ChatWidget.OnHeaderClick` | assets/js/chat-widget.js:367-372 | `minimized` flips exactly when the panel is open and the click is not on a control; nothing else changes |
| `ChatWidget.OnMinimizeButton` | assets/js/chat-widget.js:375-377 | the minimize button sets `minimized` and changes nothing else |
| `ChatWidget.OnInput` | assets/js/chat-widget.js:390-392 | send is disabled exactly when the new value is all whitespace; only the input and that flag change |
| `ChatWidget.Send` | assets/js/chat-widget.js:450-481 | when the trimmed input is empty or a reply is awaited, nothing changes. Otherwise: the input is cleared; send is disabled; exactly one user bubble holding the trimmed text is added; `isTyping` and the indicator are raised; the id is kept or made; exactly one POST of `{Body, From}` goes to `herokuUrl + '/webhook'`; nothing else changes |
| `ChatWidget.OnSettled` | assets/js/chat-widget.js:483-508 | the indicator is removed on every path. An ok status (200 to 299, `response.ok`) holds the reply text, or the fallback for an empty text, and leaves `isTyping` up. A non-ok status or a rejection appends exactly the apology and clears `isTyping` |
| `ChatWidget.OnReplyTimer` | assets/js/chat-widget.js:494-498 | the held reply is appended as an assistant bubble, and only then is `isTyping` cleared |
| `ChatWidget.OnWelcomeTimer` | assets/js/chat-widget.js:395-397 | the greeting is appended and nothing else changes |
| `ChatWidget.Step` | assets/js/chat-widget.js:362-398 | no event changes an existing conversation id; no event removes or rewrites a bubble already shown |
| `ChatWidget.Run` | assets/js/chat-widget.js:362-398 | an event the page cannot deliver (a click on a disabled button, a second greeting, a settlement with nothing in flight, a reply timer with nothing held) ends the run; along any run the transcript only grows at its end and an existing conversation id is kept |
| `ChatWidget.InitSatisfiesInv` | assets/js/chat-widget.js:317-359 | the initial state satisfies the widget invariant |
| `ChatWidget.StepKeepsInv` | assets/js/chat-widget.js:362-510 | every handler keeps the invariant. Its parts: the classes follow `isChatOpen`; send is disabled iff the trimmed input is empty; `isTyping` iff a request is in flight or a reply is held; the user bubbles are exactly the posted bodies, in order; there is one assistant bubble per answered post plus the greeting; one id for all posts |
| `ChatWidget.SendKeepsInv` | assets/js/chat-widget.js:450-481 | an accepted or ignored send keeps the invariant |
| `ChatWidget.SendKeepsPosts` | assets/js/chat-widget.js:467-481 | after an accepted send, an id exists and every post, the new one included, is a POST to the webhook under that same id with a trimmed non-empty body |
| `ChatWidget.SettledKeepsInv` | assets/js/chat-widget.js:483-508 | a settlement keeps the invariant |
| `ChatWidget.ReplyKeepsInv` | assets/js/chat-widget.js:494-498 | the reply timer keeps the invariant |
| `ChatWidget.WelcomeKeepsInv` | assets/js/chat-widget.js:395-397 | the greeting keeps the invariant |
| `ChatWidget.RunKeepsInv` | assets/js/chat-widget.js:362-510 | every run of events from a state satisfying the invariant ends in one |
| `ChatWidget.SessionIdIsStable` | assets/js/chat-widget.js:467-469 | once an id exists, no run of events changes it, so every later send reuses it |
| `ChatWidget.SessionIdsDiffer` | assets/js/chat-widget.js:468 | ids made at different times differ |
| `ChatWidget.EnsureSessionIsIdempotent` | assets/js/chat-widget.js:467-469 | making sure of a session twice yields the first id |
| `ChatWidget.AcceptedSendFindsAllAnswered` | assets/js/chat-widget.js:450-452 | when a send is accepted, no request is in flight and every earlier post already has its assistant reply |
| `ChatWidget.SendWhileAwaitingIsNoOp` | assets/js/chat-widget.js:452 | while a request is in flight or a reply is held, a send changes nothing: no bubble, no request |
| `ChatWidget.AcceptedSendAddsOneOfEach` | assets/js/chat-widget.js:455-481 | an accepted send adds exactly one user bubble and exactly one request |
| `ChatWidget.ExchangeOutcome` | assets/js/chat-widget.js:450-509 | for each outcome of one accepted send, the transcript gains the user bubble, then the reply (or the fallback), or the apology; `isTyping` and the indicator end down |
| `ChatWidget.OpenMinimizeClose` | assets/js/chat-widget.js:367-417 | opening, clicking the header and toggling again leaves the panel closed and still minimized |
| `ChatWidget.MinimizeClickOnlyMinimizes` | assets/js/chat-widget.js:367-377 | a click on the minimize control sets `minimized` whatever its state; the header handler ignores the bubbled click |
| `ChatWidget.ToggleClosesMinimizedPanel` | assets/js/chat-widget.js:401-417 | the toggle closes an open panel even when it is minimized, and the panel stays minimized |
| `ChatWidget.BlankInputIsNotSent` | assets/js/chat-widget.js:451-452 | an empty or all-whitespace input is never sent |
| `NavSections.LastWhere` | assets/js/smooth-scroll.js:150-158 | the result is the last index whose section matches, or None exactly when none matches |
| `NavSections.CurrentSectionByBand` | assets/js/smooth-scroll.js:147-158 | the result is `'#' + id` of the last section whose band holds `scrollY + 200`; it is `''` exactly when no band does |
| `NavSections.Highlight` | assets/js/smooth-scroll.js:161-166 | links keep their hrefs; a link is active iff its href equals the target |
| `NavSections.OnScrollSmooth` | assets/js/smooth-scroll.js:142-167 | after a scroll, a link is active iff its href is the current section's hash |
| `NavSections.ActivateTarget` | assets/js/smooth-scroll.js:172-181 | exactly the links whose href equals the target id are active |
| `NavSections.CurrentSectionByThreshold` | assets/js/main.js:160-169 | the result is the id of the last section with `scrollY >= top - 300`, or `''` if none; the height plays no part |
| `NavSections.OnScrollMain` | assets/js/main.js:156-177 | a link is active iff its href is `'#' + current`; with no section reached, exactly the links to `#` are active |
| `NavSections.HighlightForgetsPast` | assets/js/smooth-scroll.js:161-166 | the result of an update does not depend on which links were active before |
| `NavSections.HighlightAtMostOne` | assets/js/smooth-scroll.js:172-181 | with distinct hrefs, at most one link is active after an update |
| `NavSections.ThresholdChoiceMovesForward` | assets/js/main.js:162-169 | scrolling down never moves the threshold rule's choice to an earlier section |
| `NavSections.BandChoiceIsUnique` | assets/js/smooth-scroll.js:150-158 | when the bands do not overlap, the band rule picks the one section holding the probe |
| `Navigation.ToggleMenu` | assets/js/main.js:26-44 | a toggle click flips `active` on both the list and the button; the bars follow the list's new state; the body class is untouched |
| `Navigation.OutsideClick` | assets/js/main.js:47-57 | a click outside both the toggle and the list closes an open menu and restores the bars; any other click changes nothing |
| `Navigation.MenuHandlersKeepConsistency` | assets/js/main.js:21-59 | both handlers keep the button and the bars in step with the list; two toggle clicks restore the menu |
| `Navigation.MainNavLinkClick` | assets/js/main.js:64-99 | a bare `#` is left to the browser. Otherwise the jump is cancelled. With a target, the window scrolls to `offsetTop - 100` and an open menu is closed: the list loses `active`, and when the toggle button exists it loses `active` too and its bars become a hamburger; the body's `menu-open` class is left alone. Without a target, nothing else happens |
| `Navigation.MainNavLinkKeepsConsistency` | assets/js/main.js:79-89 | when the menu's button and bars are in step with the list before the click, they are after it |
| `Navigation.AnchorHandlersCompared` | assets/js/main.js:64-99 | with a real target, the `main.js` and `animations.js` handlers both cancel the jump and scroll 20 px apart (allowances 100 and 80); on a bare `#` only the `animations.js` one cancels it and neither scrolls; with a missing target both cancel and neither scrolls. The `animations.js` handler it compares against is at assets/js/animations.js:323-341 |
| `Navigation.HeaderOffset` | assets/js/smooth-scroll.js:77 | the header allowance is 60 at widths up to 768 and 80 above |
| `Navigation.SmoothAnchorClick` | assets/js/smooth-scroll.js:40-99 | a bare `#` or a missing target is left to the browser. Otherwise: the jump is cancelled; the scroll target is `rectTop + pageYOffset - offset`; an open menu is closed (list, button, body class); the links are highlighted for the target |
| `Navigation.SmoothCloseLeavesCross` | assets/js/smooth-scroll.js:87-95 | a menu closed by this handler keeps its bars drawn as a cross, out of step with the list |
| `Navigation.SimpleAnchorClick` | assets/js/animations.js:323-341 | the jump is always cancelled; there is no scroll exactly when the href is `#` or there is no target; otherwise the target is `offsetTop - 80` |
| `Navigation.AosOptions` | assets/js/main.js:104-123 | nothing is called without AOS. Below 768 px AOS is disabled. Otherwise `once` and `mirror` are opposite, with `once` exactly below 992 px, and the duration, easing and offset are 800, `ease-out` and 100 |
| `Reveal.ObserveSticky` | assets/js/smooth-scroll.js:188-194 | an intersecting entry adds `visible` and `in-view`; any other entry changes nothing |
| `Reveal.StickyRevealIsMonotone` | assets/js/smooth-scroll.js:188-194 | after any history of entries, the element has its old classes, plus `visible` and `in-view` exactly if it ever intersected |
| `Reveal.OnScrollReveal` | assets/js/smooth-scroll.js:209-223 | each element gains `visible` exactly when `scrollY + innerHeight > top + 0.3 * height`, and otherwise is unchanged |
| `Reveal.ScrollRevealIsMonotone` | assets/js/smooth-scroll.js:215-222 | over any run of scroll events, no element loses a class |
| `Reveal.FarEnoughInIgnoresScroll` | assets/js/smooth-scroll.js:216-219 | the reveal test does not depend on the scroll offset, which appears on both sides |
| `Reveal.ObserveAnimated` | assets/js/animations.js:36-50 | an intersecting entry adds `visible`; a non-intersecting one removes it unless `data-animate-once` is set and non-empty |
| `Reveal.RepeatingRevealFollowsLastEntry` | assets/js/animations.js:43-47 | without `data-animate-once`, the element is visible iff its latest entry intersects |
| `Reveal.OnceRevealIsMonotone` | assets/js/animations.js:36-50 | with `data-animate-once`, the element is visible iff it was visible before or ever intersected |
| `Reveal.TargetWidth` | assets/js/animations.js:77 | the fill width is `data-progress` when present and non-empty, and `75%` otherwise |
| `Reveal.ObserveSkillBar` | assets/js/animations.js:73-87 | an intersecting entry sets the fill's width (when there is a fill) and unobserves the bar; others change nothing |
| `Reveal.SkillBarFillsOnce` | assets/js/animations.js:73-91 | over any history, the bar is filled and unobserved exactly when some entry intersected, and is otherwise untouched |
| `Reveal.SplitChars` | assets/js/animations.js:205-222 | the text becomes one hidden span per character, in order, span `i` delayed by `50 * i` ms |
| `Reveal.ObserveChars` | assets/js/animations.js:225-238 | an intersecting entry shows every span and unobserves; only visibility changes, so each span keeps its character and its staggered transition delay |
| `Reveal.CharsRevealTogether` | assets/js/animations.js:205-241 | over any history, the spans spell the original text, and all are shown (together) exactly when some entry intersected; span `i` keeps the `i`th character and its `50 * i` ms delay, so the reveal stays staggered |
| `Typing.NumberOr` | assets/js/animations.js:178-179 | the logical-or fallback: a non-zero number is kept; NaN and 0 give the fallback |
| `Typing.TypingSpeed` | assets/js/animations.js:178 | the value passed to `setInterval` is never 0; it is 100 or the number `parseInt` read, and that number when it is non-zero |
| `Typing.TypingDelay` | assets/js/animations.js:179 | the initial delay is the number `parseInt` read when it read one, and 0 otherwise |
| `Typing.UndefinedIsNaN` | assets/js/animations.js:178-179 | a missing attribute is read by `parseInt` as NaN |
| `Typing.MissingAttributesGiveDefaults` | assets/js/animations.js:178-179 | with no `data-typing-speed` or `data-typing-delay`, the speed is 100 and the delay 0 |
| `Typing.WrittenAttributesAreRead` | assets/js/animations.js:178-179 | a non-zero integer attribute is used as written; a zero speed falls back to 100 |
| `Typing.StartTyping` | assets/js/animations.js:173-181 | the element starts empty, with no cursor, and wants a cursor iff `data-cursor === 'true'` |
| `Typing.Tick` | assets/js/animations.js:182-197 | while characters remain, one tick appends exactly the next one; after the last, the interval stops and the cursor appears iff it was asked for |
| `Typing.TicksKeepValid` | assets/js/animations.js:182-198 | after any number of ticks, the element shows `text[..index]`; the cursor is present only once typing has stopped, and then exactly when it was asked for |
| `Typing.TicksFinish` | assets/js/animations.js:182-198 | from any valid state, more ticks than there are characters left stop the interval |
| `Typing.TypingCompletes` | assets/js/animations.js:174-198 | the shown text is always a prefix of the text. After one more tick than the text has characters, the interval has stopped, and the element shows the whole text followed by the cursor bar exactly when `data-cursor` is `'true'` |

## Left out

- DOM construction, the CSS-in-JS style sheet and the panel markup
  (`chat-widget.js` lines 15-347) are not modelled.
  - The `innerHTML` assignment is modelled only as the string it is given
    (`Linkify.Linkified`). The widget does not escape HTML, and neither does the
    model.
  - The chat body's scroll-to-bottom and the typing-indicator markup are left
    out.
- `fetch`, `JSON.stringify`, and `console.error` are not modelled.
  - A request is recorded as a `Request` record whose payload is the
    `{Body, From}` pair.
  - A settlement carries any status and body text, or a rejection.
  - A failure while reading the body counts as a rejection, as it lands in the
    same `catch`.
- Timers are events: the 500 ms greeting, the 500 ms reply delay and each
  firing of the typing interval. The order in which they fire relative to
  clicks is left open, and nothing about elapsed time is modelled.
- Two timers are collapsed rather than modelled as events. The 200 ms
  `setTimeout` that fills a skill bar (`animations.js` line 80) is folded into
  `Reveal.ObserveSkillBar`, which sets the width in the same step as the
  intersecting entry. The `data-typing-delay` wait before typing starts
  (`animations.js` line 181) is computed by `Typing.TypingDelay` but not waited
  for: `Typing.StartTyping` empties the element and starts the interval in one
  step, as if the delay had already passed.
- `Date.now()` is a parameter. `Decimal.IntToString` is `String(n)` only for
  safe integers, below 2^53 in magnitude. Beyond that a Number is not an exact
  integer: JavaScript prints rounded digits up to 10^21 and exponent notation
  above. A clock reading in milliseconds stays far below 2^53.
- `Decimal.ParseIntOfIntToString`: `parseInt` is modelled with exact integers.
  JavaScript rounds values beyond 2^53 to the nearest double. An attribute that
  large would read back rounded.
- Characters are Dafny characters. JavaScript strings are UTF-16 code units, so
  a character outside the Basic Multilingual Plane is two units for
  `charAt`, the typing effect and the character split, and one here.
- `IntersectionObserver` thresholds and root margins are not modelled, and
  neither is which elements are observed. An element's history is its sequence
  of `isIntersecting` values.
- `Reveal.SplitChars`: the transition delay is the CSS string `${i * 0.05}s`,
  built from a floating-point product. The model states the intended `50 * i`
  milliseconds and ignores the rounding in the printed decimal.
- `Reveal.ObserveSkillBar`: for a bar without a `.progress` child, the timer's
  assignment throws a `TypeError`. The model leaves the width unset, which is
  the visible effect.
- `document.querySelector(href)` throws on an `href` that is not a valid
  selector. The model takes the lookup result as a parameter, found or not, and
  does not model the exception.
- The three anchor handlers are modelled one by one. A page that loads several
  scripts runs all of them on the same click, and that combination is not
  modelled. `Navigation.AnchorHandlersCompared` states how two of them differ.
- `smooth-scroll.js` line 186 and `animations.js` line 24 both declare a global
  `initScrollAnimations`. On a page that loads both, the later-loaded
  declaration replaces the other, and both `DOMContentLoaded` listeners call
  that one. Both observers are modelled (`Reveal.ObserveSticky`,
  `Reveal.ObserveAnimated`); which one a page runs depends on its script order,
  which is not modelled.
- Browser doubles are modelled as exact reals: `scrollY`, bounding-box tops and
  `0.3 * offsetHeight` in `Reveal.FarEnoughIn`, and the scroll targets of the
  anchor handlers. `Reveal.FarEnoughInIgnoresScroll` holds in exact
  arithmetic; with doubles, rounding in the two sums could flip a comparison
  that is within one unit of the last place.
- `Typing.TypingSpeed`: a negative attribute is passed to `setInterval` as
  read. Browsers clamp a negative delay to 0, and the model does not state
  that clamp.
- Floating-point effects are left out:
  - the scroll progress bar (`smooth-scroll.js` 119-137);
  - parallax (`smooth-scroll.js` 228-255, `animations.js` 244-280, `main.js`
    128-151 except the call to `highlightActiveSection`);
  - the smooth-scroll polyfill and easing (`smooth-scroll.js` 260-286);
  - the card tilt and glare, the counters, and the glitch effect
    (`animations.js` 94-165 and 282-318, `main.js` 179-231).
- Page-load and setup code is left out: the flash overlay and its timers
  (`smooth-scroll.js` 64-68), the Locomotive-attribute removal, the `load`
  handler, and the resize handler. The toggle's 100 ms scroll-to-bottom timer
  (`chat-widget.js` 410-412) is left out with the scroll itself.
- `premium-transitions.js`, `particles.js` and `cursor.js` are not part of this
  model. They drive a foreign animation library, random particle physics,
  canvas drawing and a mouse-following cursor loop.
- `ChatWidget.Step`: its own contract states only id stability and that
  existing bubbles are kept. What each event does is stated by the handler it
  calls, and the invariant by `ChatWidget.StepKeepsInv`.

=== FILE: chat_widget.dfy ===
/** The chat widget controller of `assets/js/chat-widget.js`: the open and
    minimized state of the panel, the send control, the in-flight guard
    `isTyping`, the lazily generated conversation id, the transcript and the
    requests sent to the webhook.

    The widget is one immutable record; every browser event the widget
    listens to, and every timer or network settlement it waits for, is an
    `Event`, and `Step` is the handler that runs for it. The network is not
    modelled: a request is recorded in `sent`, and its outcome arrives later
    as a `Settled` event carrying any status and body, or a rejection.
    `Date.now()` is the `now` argument of the two send events. */
module ChatWidget {
  import opened Wrappers
  import opened Text
  import opened Decimal

  const HerokuUrl: string := "https://cas-agent-d1b1fe6032c4.herokuapp.com"
  const WebhookUrl: string := HerokuUrl + "/webhook"
  const InitialMessage: string :=
    "Hello there, I am CAS, Shaun's AI Assistant! How can I help you with scheduling appointments or answering questions about Shaun's AI consulting services?"
  const ConnectionTrouble: string := "I'm having trouble connecting. Please try again later."
  const EmptyReplyFallback: string := "I didn't catch that. Could you please try again?"
  const SessionPrefix: string := "web_user_"

  datatype Role = User | Assistant

  /** One bubble of the transcript; its markup is `Linkify.Linkified(text)`. */
  datatype Message = Message(role: Role, text: string)

  /** The JSON body `{Body, From}` of a webhook request. */
  datatype Payload = Payload(body: string, from: string)

  datatype Request = Request(url: string, verb: string, contentType: string, payload: Payload)

  /** How a `fetch` settles: a response with its status and body text, or a
      rejection (a network failure, or a failure to read the body). */
  datatype Outcome = Response(status: int, body: string) | Rejected

  /** The widget. `minimized` and `containerActive` are the classes of the
      panel, `toggleActive` the class of the floating button, `indicator` the
      presence of the typing indicator, `pending` a reply waiting for its
      500 ms timer, `welcomed` whether the greeting timer has fired. */
  datatype Widget = Widget(
    open: bool,
    minimized: bool,
    containerActive: bool,
    toggleActive: bool,
    typing: bool,
    conversationId: Option<string>,
    input: string,
    sendDisabled: bool,
    transcript: seq<Message>,
    indicator: bool,
    pending: Option<string>,
    welcomed: bool,
    sent: seq<Request>)

  datatype Event =
    | ToggleClick           // the floating button
    | HeaderClick           // the header, outside its controls
    | MinimizeClick         // the minimize control inside the header
    | Typed(value: string)  // an `input` event leaving this value in the box
    | EnterKey(now: int)    // Enter pressed in the box
    | SendClick(now: int)   // the send button
    | WelcomeTimer          // the greeting's 500 ms timer
    | Settled(outcome: Outcome)  // the in-flight request settles
    | ReplyTimer            // the 500 ms timer of a successful reply

  /** The state right after the script has run: closed, minimized, send
      disabled, no conversation yet. */
  function Init(): (w: Widget)
    ensures !w.open && w.minimized && w.sendDisabled && !w.typing
    ensures w.conversationId.None? && w.transcript == [] && w.sent == []
  {
    Widget(false, true, false, false, false, None, "", true, [], false, None, false, [])
  }

  /** `Response.ok`: the status is in the range 200 to 299. */
  predicate IsOk(status: int) {
    200 <= status <= 299
  }

  function SessionId(now: int): string {
    SessionPrefix + IntToString(now)
  }

  /** The id a send uses: the existing one, or a fresh `'web_user_' + now`. */
  function EnsureSession(id: Option<string>, now: int): (r: string)
    ensures id.Some? ==> r == id.value
    ensures id.None? ==> r == SessionId(now)
  {
    match id
    case Some(v) => v
    case None => SessionId(now)
  }

  /** `toggleChat`: flips `isChatOpen`; opening clears `minimized` and marks
      panel and button active, closing only unmarks them. */
  function Toggle(w: Widget): (r: Widget)
    ensures r.open == !w.open
    ensures r.containerActive == r.open && r.toggleActive == r.open
    ensures r.minimized == (if r.open then false else w.minimized)
    ensures r.(open := w.open, minimized := w.minimized, containerActive := w.containerActive,
               toggleActive := w.toggleActive) == w
  {
    if !w.open then w.(open := true, minimized := false, containerActive := true, toggleActive := true)
    else w.(open := false, containerActive := false, toggleActive := false)
  }

  /** The header's click handler: flips `minimized`, but only while the chat
      is open and the click did not land on a control. */
  function OnHeaderClick(w: Widget, onControl: bool): (r: Widget)
    ensures r == w.(minimized := r.minimized)
    ensures r.minimized != w.minimized <==> (w.open && !onControl)
  {
    if onControl then w
    else if !w.open then w
    else w.(minimized := !w.minimized)
  }

  /** The minimize button's handler: always sets `minimized`. */
  function OnMinimizeButton(w: Widget): (r: Widget)
    ensures r.minimized && r == w.(minimized := true)
  {
    w.(minimized := true)
  }

  /** The `input` handler: the send button is disabled exactly when the
      trimmed value is empty. */
  function OnInput(w: Widget, value: string): (r: Widget)
    ensures r.input == value
    ensures r.sendDisabled <==> AllSpace(value)
    ensures r == w.(input := value, sendDisabled := r.sendDisabled)
  {
    w.(input := value, sendDisabled := Trim(value) == "")
  }

  /** The request an accepted send issues. */
  function WebhookPost(message: string, id: string): Request {
    Request(WebhookUrl, "POST", "application/json", Payload(message, id))
  }

  /** True when `sendMessage` returns at once: the trimmed input is empty or a
      reply is still awaited. */
  predicate SendIgnored(w: Widget) {
    Trim(w.input) == "" || w.typing
  }

  /** `sendMessage` up to the moment it awaits the network: an ignored send
      changes nothing; an accepted one clears the input, disables the send
      button, appends the trimmed message as a user bubble, raises `isTyping`,
      shows the indicator, generates the conversation id if there is none and
      posts the message under that id. */
  function Send(w: Widget, now: int): (r: Widget)
    ensures SendIgnored(w) ==> r == w
    ensures !SendIgnored(w) ==>
      var id := EnsureSession(w.conversationId, now);
      && r.input == "" && r.sendDisabled
      && r.transcript == w.transcript + [Message(User, Trim(w.input))]
      && r.typing && r.indicator
      && r.conversationId == Some(id)
      && r.sent == w.sent + [WebhookPost(Trim(w.input), id)]
      && r.(input := w.input, sendDisabled := w.sendDisabled, transcript := w.transcript,
            typing := w.typing, indicator := w.indicator, conversationId := w.conversationId,
            sent := w.sent) == w
  {
    var message := Trim(w.input);
    if message == "" || w.typing then w
    else
      var id := EnsureSession(w.conversationId, now);
      w.(input := "", sendDisabled := true,
         transcript := w.transcript + [Message(User, message)],
         typing := true, indicator := true,
         conversationId := Some(id),
         sent := w.sent + [WebhookPost(message, id)])
  }

  /** The settlement of the awaited `fetch`. Both paths remove the typing
      indicator. A non-ok status or a rejection appends the fixed apology and
      clears `isTyping` at once; an ok response holds its text, or the
      fallback when the text is empty, until the reply timer fires. */
  function OnSettled(w: Widget, outcome: Outcome): (r: Widget)
    requires w.indicator
    ensures !r.indicator
    ensures (outcome.Response? && IsOk(outcome.status)) ==>
      && r.typing == w.typing && r.transcript == w.transcript
      && r.pending == Some(if outcome.body == "" then EmptyReplyFallback else outcome.body)
    ensures !(outcome.Response? && IsOk(outcome.status)) ==>
      && !r.typing && r.pending == w.pending
      && r.transcript == w.transcript + [Message(Assistant, ConnectionTrouble)]
    ensures r.(indicator := w.indicator, typing := w.typing, transcript := w.transcript,
               pending := w.pending) == w
  {
    if outcome.Response? && IsOk(outcome.status) then
      var text := if outcome.body == "" then EmptyReplyFallback else outcome.body;
      w.(indicator := false, pending := Some(text))
    else
      w.(indicator := false, transcript := w.transcript + [Message(Assistant, ConnectionTrouble)],
         typing := false)
  }

  /** The reply timer: the held reply is appended, and only then is
      `isTyping` cleared. */
  function OnReplyTimer(w: Widget): (r: Widget)
    requires w.pending.Some?
    ensures r.transcript == w.transcript + [Message(Assistant, w.pending.value)]
    ensures !r.typing && r.pending.None?
    ensures r.(transcript := w.transcript, typing := w.typing, pending := w.pending) == w
  {
    w.(transcript := w.transcript + [Message(Assistant, w.pending.value)], typing := false,
       pending := None)
  }

  /** The greeting timer set up by `init`. */
  function OnWelcomeTimer(w: Widget): (r: Widget)
    ensures r.transcript == w.transcript + [Message(Assistant, InitialMessage)]
    ensures r == w.(transcript := r.transcript, welcomed := true)
  {
    w.(transcript := w.transcript + [Message(Assistant, InitialMessage)], welcomed := true)
  }

  /** Whether the event can happen in this state: a disabled button receives
      no clicks, a settlement needs a request in flight, a reply timer needs a
      held reply, and the greeting timer fires once. */
  predicate Enabled(w: Widget, e: Event) {
    match e
    case SendClick(_) => !w.sendDisabled
    case Settled(_) => w.indicator
    case ReplyTimer => w.pending.Some?
    case WelcomeTimer => !w.welcomed
    case _ => true
  }

  /** The widget's reaction to one event. A click on the minimize control
      runs the control's handler and then bubbles to the header, whose
      handler ignores clicks on controls. */
  function Step(w: Widget, e: Event): (r: Widget)
    requires Enabled(w, e)
    ensures w.conversationId.Some? ==> r.conversationId == w.conversationId
    ensures |w.transcript| <= |r.transcript| && r.transcript[..|w.transcript|] == w.transcript
  {
    match e
    case ToggleClick => Toggle(w)
    case HeaderClick => OnHeaderClick(w, false)
    case MinimizeClick => OnHeaderClick(OnMinimizeButton(w), true)
    case Typed(value) => OnInput(w, value)
    case EnterKey(now) => Send(w, now)
    case SendClick(now) => Send(w, now)
    case WelcomeTimer => OnWelcomeTimer(w)
    case Settled(outcome) => OnSettled(w, outcome)
    case ReplyTimer => OnReplyTimer(w)
  }

  /** Runs a sequence of events; None when one of them cannot happen. Along
      any run the transcript only grows at its end and a conversation id,
      once generated, is kept. */
  function Run(w: Widget, es: seq<Event>): (r: Option<Widget>)
    ensures |es| > 0 && !Enabled(w, es[0]) ==> r.None?
    ensures r.Some? ==>
      && |w.transcript| <= |r.value.transcript|
      && r.value.transcript[..|w.transcript|] == w.transcript
    ensures r.Some? && w.conversationId.Some? ==> r.value.conversationId == w.conversationId
    decreases |es|
  {
    if |es| == 0 then Some(w)
    else if Enabled(w, es[0]) then Run(Step(w, es[0]), es[1..])
    else None
  }

  // ----- Transcript bookkeeping -----

  function CountRole(ts: seq<Message>, role: Role): nat {
    if |ts| == 0 then 0
    else CountRole(ts[..|ts| - 1], role) + (if ts[|ts| - 1].role == role then 1 else 0)
  }

  /** The texts of the user bubbles, in order. */
  function UserTexts(ts: seq<Message>): seq<string> {
    if |ts| == 0 then []
    else UserTexts(ts[..|ts| - 1]) + (if ts[|ts| - 1].role == User then [ts[|ts| - 1].text] else [])
  }

  /** The message texts posted, in order. */
  function Bodies(rs: seq<Request>): seq<string> {
    if |rs| == 0 then [] else Bodies(rs[..|rs| - 1]) + [rs[|rs| - 1].payload.body]
  }

  lemma {:induction false} AppendMessage(ts: seq<Message>, m: Message)
    ensures CountRole(ts + [m], Assistant) == CountRole(ts, Assistant) + (if m.role == Assistant then 1 else 0)
    ensures UserTexts(ts + [m]) == UserTexts(ts) + (if m.role == User then [m.text] else [])
  {
    assert (ts + [m])[..|ts|] == ts;
  }

  lemma {:induction false} AppendRequest(rs: seq<Request>, q: Request)
    ensures Bodies(rs + [q]) == Bodies(rs) + [q.payload.body]
  {
    assert (rs + [q])[..|rs|] == rs;
  }

  // ----- The invariant -----

  /** What holds in every reachable state:
      - the active classes follow `isChatOpen`, and the send button is
        disabled exactly when the trimmed input is empty (`ControlsInv`);
      - `isTyping` is up exactly while a request is in flight (indicator
        shown) or a successful reply waits for its timer, never both
        (`FlowInv`);
      - the user bubbles are exactly the posted messages, in order, each
        trimmed and non-empty; every posted request but the one awaited has
        been answered by exactly one assistant bubble (besides the greeting);
        a conversation id exists once something was posted, and every post
        went to the webhook under that one id (`LogInv`). */
  ghost predicate Inv(w: Widget) {
    ControlsInv(w) && FlowInv(w) && LogInv(w)
  }

  predicate ControlsInv(w: Widget) {
    && w.containerActive == w.open && w.toggleActive == w.open
    && (w.sendDisabled <==> Trim(w.input) == "")
  }

  predicate FlowInv(w: Widget) {
    && (w.typing <==> (w.indicator || w.pending.Some?))
    && !(w.indicator && w.pending.Some?)
  }

  /** A request as the widget posts it: to the webhook, under `id`, with a
      trimmed non-empty message. */
  predicate IsPost(q: Request, id: string) {
    && q == WebhookPost(q.payload.body, id)
    && q.payload.body != ""
    && Trim(q.payload.body) == q.payload.body
  }

  ghost predicate LogInv(w: Widget) {
    && UserTexts(w.transcript) == Bodies(w.sent)
    && CountRole(w.transcript, Assistant) + (if w.typing then 1 else 0)
         == |w.sent| + (if w.welcomed then 1 else 0)
    && (w.conversationId.Some? <==> |w.sent| > 0)
    && (forall i :: 0 <= i < |w.sent| ==> w.conversationId.Some? && IsPost(w.sent[i], w.conversationId.value))
  }

  /** `LogInv` reads only the transcript, the requests, `isTyping`, the id
      and the greeting flag. */
  lemma LogInvFrame(w: Widget, r: Widget)
    requires LogInv(w)
    requires r.transcript == w.transcript && r.sent == w.sent && r.typing == w.typing
    requires r.conversationId == w.conversationId && r.welcomed == w.welcomed
    ensures LogInv(r)
  {
  }

  lemma InitSatisfiesInv()
    ensures Inv(Init())
  {
    assert Trim("") == "";
  }

  /** Every event keeps the invariant. */
  lemma {:induction false} StepKeepsInv(w: Widget, e: Event)
    requires Inv(w) && Enabled(w, e)
    ensures Inv(Step(w, e))
  {
    var r := Step(w, e);
    match e
    case ToggleClick => LogInvFrame(w, r);
    case HeaderClick => LogInvFrame(w, r);
    case MinimizeClick => LogInvFrame(w, r);
    case Typed(value) => LogInvFrame(w, r);
    case EnterKey(now) => SendKeepsInv(w, now);
    case SendClick(now) => SendKeepsInv(w, now);
    case WelcomeTimer => WelcomeKeepsInv(w);
    case Settled(outcome) => SettledKeepsInv(w, outcome);
    case ReplyTimer => ReplyKeepsInv(w);
  }

  lemma {:induction false} WelcomeKeepsInv(w: Widget)
    requires Inv(w) && !w.welcomed
    ensures Inv(OnWelcomeTimer(w))
  {
    AppendMessage(w.transcript, Message(Assistant, InitialMessage));
  }

  lemma {:induction false} SettledKeepsInv(w: Widget, outcome: Outcome)
    requires Inv(w) && w.indicator
    ensures Inv(OnSettled(w, outcome))
  {
    AppendMessage(w.transcript, Message(Assistant, ConnectionTrouble));
  }

  lemma {:induction false} ReplyKeepsInv(w: Widget)
    requires Inv(w) && w.pending.Some?
    ensures Inv(OnReplyTimer(w))
  {
    AppendMessage(w.transcript, Message(Assistant, w.pending.value));
  }

  lemma {:induction false} SendKeepsInv(w: Widget, now: int)
    requires Inv(w)
    ensures Inv(Send(w, now))
  {
    if !SendIgnored(w) {
      assert Trim("") == "";
      SendKeepsLog(w, now);
    }
  }

  /** The log part of the invariant across an accepted send: one user bubble
      and one matching post are added, and the post uses the id every earlier
      post used. */
  lemma {:induction false} SendKeepsLog(w: Widget, now: int)
    requires LogInv(w) && FlowInv(w) && !SendIgnored(w)
    ensures LogInv(Send(w, now))
  {
    SendKeepsCounts(w, now);
    SendKeepsPosts(w, now);
  }

  lemma {:induction false} SendKeepsCounts(w: Widget, now: int)
    requires LogInv(w) && FlowInv(w) && !SendIgnored(w)
    ensures var r := Send(w, now);
            && UserTexts(r.transcript) == Bodies(r.sent)
            && CountRole(r.transcript, Assistant) + (if r.typing then 1 else 0)
                 == |r.sent| + (if r.welcomed then 1 else 0)
  {
    var message := Trim(w.input);
    var id := EnsureSession(w.conversationId, now);
    AppendMessage(w.transcript, Message(User, message));
    AppendRequest(w.sent, WebhookPost(message, id));
  }

  lemma {:induction false} SendKeepsPosts(w: Widget, now: int)
    requires LogInv(w) && !SendIgnored(w)
    ensures var r := Send(w, now);
            && (r.conversationId.Some? <==> |r.sent| > 0)
            && (forall i :: 0 <= i < |r.sent| ==> r.conversationId.Some? && IsPost(r.sent[i], r.conversationId.value))
  {
    var r := Send(w, now);
    var message := Trim(w.input);
    var id := EnsureSession(w.conversationId, now);
    TrimIdempotent(w.input);
    assert IsPost(WebhookPost(message, id), id);
    assert r.sent == w.sent + [WebhookPost(message, id)];
    forall i | 0 <= i < |r.sent|
      ensures IsPost(r.sent[i], id)
    {
      if i < |w.sent| {
        assert r.sent[i] == w.sent[i];
      }
    }
  }

  /** Every run from a state satisfying the invariant ends in one. */
  lemma {:induction false} RunKeepsInv(w: Widget, es: seq<Event>)
    requires Inv(w) && Run(w, es).Some?
    ensures Inv(Run(w, es).value)
    decreases |es|
  {
    if |es| > 0 {
      StepKeepsInv(w, es[0]);
      RunKeepsInv(Step(w, es[0]), es[1..]);
    }
  }

  // ----- Properties of runs -----

  /** Once generated, the conversation id never changes: every later send of
      the page reuses it. */
  lemma {:induction false} SessionIdIsStable(w: Widget, es: seq<Event>)
    requires w.conversationId.Some? && Run(w, es).Some?
    ensures Run(w, es).value.conversationId == w.conversationId
    decreases |es|
  {
    if |es| > 0 {
      SessionIdIsStable(Step(w, es[0]), es[1..]);
    }
  }

  /** Ids generated at different times differ. */
  lemma SessionIdsDiffer(a: int, b: int)
    requires a != b
    ensures SessionId(a) != SessionId(b)
  {
    if SessionId(a) == SessionId(b) {
      assert IntToString(a) == SessionId(a)[|SessionPrefix|..];
      assert IntToString(b) == SessionId(b)[|SessionPrefix|..];
      IntToStringInjective(a, b);
    }
  }

  /** Asking for the session twice yields the same id. */
  lemma EnsureSessionIsIdempotent(id: Option<string>, t1: int, t2: int)
    ensures EnsureSession(Some(EnsureSession(id, t1)), t2) == EnsureSession(id, t1)
  {
  }

  /** At most one request is ever in flight: when a send is accepted, every
      earlier post already has its assistant reply in the transcript. */
  lemma AcceptedSendFindsAllAnswered(w: Widget)
    requires Inv(w) && !SendIgnored(w)
    ensures CountRole(w.transcript, Assistant) == |w.sent| + (if w.welcomed then 1 else 0)
    ensures !w.indicator && w.pending.None?
  {
  }

  /** A send while a reply is awaited is a no-op: nothing is appended and no
      second request is posted. */
  lemma SendWhileAwaitingIsNoOp(w: Widget, now: int)
    requires Inv(w) && (w.indicator || w.pending.Some?)
    ensures Send(w, now) == w
  {
  }

  /** An accepted send puts exactly one user bubble and exactly one request
      into the widget. */
  lemma {:induction false} AcceptedSendAddsOneOfEach(w: Widget, now: int)
    requires Inv(w) && !SendIgnored(w)
    ensures |UserTexts(Send(w, now).transcript)| == |UserTexts(w.transcript)| + 1
    ensures |Send(w, now).sent| == |w.sent| + 1
  {
    AppendMessage(w.transcript, Message(User, Trim(w.input)));
  }

  /** The exchange for one accepted send, by outcome: an ok response adds its
      body (or the fallback for an empty body) as the only new bubble after
      the user's, a failure adds the apology; either way `isTyping` ends
      false and the indicator is gone. */
  lemma ExchangeOutcome(w: Widget, now: int, outcome: Outcome)
    requires Inv(w) && !SendIgnored(w)
    ensures var s := Send(w, now);
            var u := [Message(User, Trim(w.input))];
            var settled := OnSettled(s, outcome);
            if outcome.Response? && IsOk(outcome.status) then
              var done := OnReplyTimer(settled);
              && done.transcript == w.transcript + u
                   + [Message(Assistant, if outcome.body == "" then EmptyReplyFallback else outcome.body)]
              && !done.typing && !done.indicator
            else
              && settled.transcript == w.transcript + u + [Message(Assistant, ConnectionTrouble)]
              && !settled.typing && !settled.indicator
  {
  }

  /** The scenario of a closed widget opened, minimized from its header, then
      closed with the button: it ends closed and still minimized. */
  lemma OpenMinimizeClose()
    ensures var w := Run(Init(), [ToggleClick, HeaderClick, ToggleClick]);
            && w.Some? && !w.value.open && w.value.minimized
            && !w.value.containerActive && !w.value.toggleActive
  {
    var w1 := Step(Init(), ToggleClick);
    assert w1.open && !w1.minimized;
    var w2 := Step(w1, HeaderClick);
    assert w2.minimized;
    assert [ToggleClick, HeaderClick, ToggleClick][1..] == [HeaderClick, ToggleClick];
    assert [HeaderClick, ToggleClick][1..] == [ToggleClick];
  }

  /** The minimize control only ever minimizes: its click, bubbling to the
      header, never restores a minimized panel. */
  lemma MinimizeClickOnlyMinimizes(w: Widget)
    ensures Step(w, MinimizeClick) == w.(minimized := true)
  {
  }

  /** The toggle button closes an open panel even while it is minimized, and
      the panel stays minimized underneath. */
  lemma ToggleClosesMinimizedPanel(w: Widget)
    requires w.open && w.minimized
    ensures var r := Step(w, ToggleClick);
            !r.open && r.minimized && !r.containerActive
  {
  }

  /** Blank input, whether empty or only spaces, is never sent. */
  lemma BlankInputIsNotSent(w: Widget, now: int)
    requires AllSpace(w.input)
    ensures Send(w, now) == w
  {
  }
}

=== FILE: decimal.dfy ===
/** Integers as JavaScript writes and reads them: the decimal text that
    `String(n)` produces for a safe integer (used for `'web_user_' + Date.now()`),
    and the global `parseInt(string)` with no radix argument (used for the
    `data-typing-speed` and `data-typing-delay` attributes). */
module Decimal {
  import opened Text
  import opened Wrappers

  /** What `parseInt` returns: NaN, or an integral number. */
  datatype Parsed = NaN | Num(n: int)

  predicate IsDecimalDigit(c: char) {
    '0' <= c <= '9'
  }

  function DigitChar(d: nat): (c: char)
    requires d < 10
    ensures IsDecimalDigit(c) && DigitValue(c) == d
  {
    ['0', '1', '2', '3', '4', '5', '6', '7', '8', '9'][d]
  }

  /** The value of a digit character in radix 16 and below, or 36 when it is
      not a digit at all (so it is never below any radix used here). */
  function DigitValue(c: char): (v: nat)
    ensures IsDecimalDigit(c) ==> v < 10
  {
    if '0' <= c <= '9' then c as int - '0' as int
    else if 'a' <= c <= 'f' then c as int - 'a' as int + 10
    else if 'A' <= c <= 'F' then c as int - 'A' as int + 10
    else 36
  }

  /** Decimal text of a natural number, most significant digit first, with
      no leading zeros. */
  function NatToString(n: nat): (s: string)
    ensures |s| > 0
    ensures forall i :: 0 <= i < |s| ==> IsDecimalDigit(s[i])
    ensures |s| > 1 ==> s[0] != '0'
  {
    if n < 10 then [DigitChar(n)] else NatToString(n / 10) + [DigitChar(n % 10)]
  }

  /** `String(n)` for a safe integer, one below 2^53 in magnitude; larger
      Numbers are not exact integers and print rounded digits. */
  function IntToString(n: int): (s: string)
    ensures |s| > 0
    ensures n < 0 <==> s[0] == '-'
  {
    if n < 0 then "-" + NatToString(-n) else NatToString(n)
  }

  /** The value of the digits `ds` read in `radix`, most significant first. */
  function DigitsValue(ds: string, radix: nat): nat
  {
    if |ds| == 0 then 0
    else DigitsValue(ds[..|ds| - 1], radix) * radix + DigitValue(ds[|ds| - 1])
  }

  /** The length of the longest prefix of `s[i..]`, counted from `i`, made of
      digits of `radix`. */
  function DigitRun(s: string, i: nat, radix: nat): (k: nat)
    requires i <= |s|
    ensures i <= k <= |s|
    ensures forall j :: i <= j < k ==> DigitValue(s[j]) < radix
    ensures k < |s| ==> DigitValue(s[k]) >= radix
    decreases |s| - i
  {
    if i == |s| || DigitValue(s[i]) >= radix then i else DigitRun(s, i + 1, radix)
  }

  /** The magnitude part of `parseInt`, after whitespace and sign: a `0x`/`0X`
      prefix switches to radix 16, and the longest run of digits that follows
      is the value; no digits at all is None. */
  function ParseMagnitude(u: string): Option<nat>
  {
    var hex := |u| >= 2 && u[0] == '0' && (u[1] == 'x' || u[1] == 'X');
    var radix := if hex then 16 else 10;
    var v := if hex then u[2..] else u;
    var z := DigitRun(v, 0, radix);
    if z == 0 then None else Some(DigitsValue(v[..z], radix))
  }

  /** The global `parseInt(s)` with the radix left undefined: leading
      whitespace is skipped, then one `+` or `-` sign is read, then the
      magnitude; a string with no digits where the magnitude belongs gives
      NaN. */
  function ParseInt(s: string): (r: Parsed)
    ensures var t := TrimStart(s);
            (|t| == 0 || !(IsDecimalDigit(t[0]) || t[0] == '+' || t[0] == '-')) ==> r == NaN
    ensures var t := TrimStart(s);
            |t| > 0 && IsDecimalDigit(t[0]) && !(|t| >= 2 && t[0] == '0' && (t[1] == 'x' || t[1] == 'X'))
            ==> r.Num? && r.n >= 0
    ensures r.Num? && r.n < 0 ==> |TrimStart(s)| > 0 && TrimStart(s)[0] == '-'
  {
    var t := TrimStart(s);
    var negative := |t| > 0 && t[0] == '-';
    var u := if |t| > 0 && (t[0] == '-' || t[0] == '+') then t[1..] else t;
    match ParseMagnitude(u)
    case None => NaN
    case Some(m) => Num(if negative then -(m as int) else m)
  }

  /** Reading back the text of a natural number gives the number. */
  lemma {:induction false} DigitsOfNatToString(n: nat)
    ensures DigitsValue(NatToString(n), 10) == n
  {
    var s := NatToString(n);
    if n >= 10 {
      DigitsOfNatToString(n / 10);
      assert s[..|s| - 1] == NatToString(n / 10);
    }
  }

  /** `parseInt(String(n)) == n` for every integer: the decimal text written
      for an id or an attribute is read back exactly. */
  lemma {:induction false} ParseIntOfIntToString(n: int)
    ensures ParseInt(IntToString(n)) == Num(n)
  {
    ParseIntReadsLeadingNumber(n, "");
    assert IntToString(n) + "" == IntToString(n);
  }

  /** `parseInt` reads a leading integer and ignores whatever follows it, so
      `"250ms"` reads as 250: the digit run stops at the first character that
      is not a digit (an `x` right after a lone `0` would make it hex). */
  lemma {:induction false} ParseIntReadsLeadingNumber(n: int, rest: string)
    requires |rest| == 0 || (!IsDecimalDigit(rest[0]) && rest[0] != 'x' && rest[0] != 'X')
    ensures ParseInt(IntToString(n) + rest) == Num(n)
  {
    var m: nat := if n < 0 then -n else n;
    SignThenDigits(n, rest);
    MagnitudeThenRest(m, rest);
    ParseIntOfSignAndMagnitude(IntToString(n) + rest, n < 0, m);
  }

  /** The text of `n` followed by `rest` starts with a sign exactly when `n`
      is negative, and is the digits of `|n|` then `rest` after it. */
  lemma SignThenDigits(n: int, rest: string)
    ensures var s := IntToString(n) + rest;
            var m: nat := if n < 0 then -n else n;
            && |s| > 0 && !IsSpace(s[0]) && s[0] != '+' && (s[0] == '-' <==> n < 0)
            && (if n < 0 then s[1..] else s) == NatToString(m) + rest
  {
    var s := IntToString(n) + rest;
    assert s[0] == IntToString(n)[0];
    if n < 0 {
      assert IntToString(n) == "-" + NatToString(-n);
      DropSign(NatToString(-n), rest);
    }
  }

  /** `parseInt` of a text with no leading space, an optional `-` and then a
      magnitude. */
  lemma ParseIntOfSignAndMagnitude(s: string, negative: bool, m: nat)
    requires |s| > 0 && !IsSpace(s[0]) && s[0] != '+' && (s[0] == '-' <==> negative)
    requires ParseMagnitude(if negative then s[1..] else s) == Some(m)
    ensures ParseInt(s) == Num(if negative then -(m as int) else m)
  {
    assert SkipSpaces(s, 0) == 0;
    assert TrimStart(s) == s;
  }

  lemma DropSign(digits: string, rest: string)
    ensures (("-" + digits) + rest)[1..] == digits + rest
  {
    assert ("-" + digits) + rest == "-" + (digits + rest);
  }

  lemma {:induction false} MagnitudeThenRest(m: nat, rest: string)
    requires |rest| == 0 || (!IsDecimalDigit(rest[0]) && rest[0] != 'x' && rest[0] != 'X')
    ensures ParseMagnitude(NatToString(m) + rest) == Some(m)
  {
    var digits := NatToString(m);
    var u := digits + rest;
    assert !(|u| >= 2 && u[0] == '0' && (u[1] == 'x' || u[1] == 'X')) by {
      if |digits| == 1 && |rest| > 0 { assert u[1] == rest[0]; }
    }
    DigitRunStopsAt(digits, rest, 0);
    assert u[..|digits|] == digits;
    DigitsOfNatToString(m);
  }

  lemma {:induction false} DigitRunStopsAt(ds: string, rest: string, i: nat)
    requires i <= |ds|
    requires forall j :: 0 <= j < |ds| ==> IsDecimalDigit(ds[j])
    requires |rest| == 0 || !IsDecimalDigit(rest[0])
    ensures DigitRun(ds + rest, i, 10) == |ds|
    decreases |ds| - i
  {
    var s := ds + rest;
    if i < |ds| {
      assert s[i] == ds[i];
      DigitRunStopsAt(ds, rest, i + 1);
    } else if |rest| > 0 {
      assert s[i] == rest[0];
    }
  }

  /** Distinct integers have distinct decimal texts. */
  lemma {:induction false} IntToStringInjective(a: int, b: int)
    requires IntToString(a) == IntToString(b)
    ensures a == b
  {
    ParseIntOfIntToString(a);
    ParseIntOfIntToString(b);
  }
}

=== FILE: linkify.dfy ===
/** The chat widget's URL linkification: every message text is passed through
    `text.replace(/(https?:\/\/[^\s]+)/g, '<a href="$1" ...>$1</a>')` before it
    is shown. The global regular-expression replacement is modelled as a scan
    that cuts the text into plain characters and URL runs, followed by a
    rendering that wraps each URL run in an anchor. No HTML escaping takes
    place, in the model as in the widget. */
module Linkify {
  import opened Text

  /** A piece of scanned text: one character left as it is, or a URL run that
      is rendered as an anchor. */
  datatype Segment = Plain(c: char) | Link(url: string)

  const HttpScheme: string := "http://"
  const HttpsScheme: string := "https://"

  /** The length of the `https?://` scheme `s` starts with, or 0. */
  function SchemeLen(s: string): (k: nat)
    ensures k == 0 || k == 7 || k == 8
    ensures k <= |s|
  {
    if |s| >= 8 && s[..8] == HttpsScheme then 8
    else if |s| >= 7 && s[..7] == HttpScheme then 7
    else 0
  }

  /** The first whitespace position at or after `i`, or `|s|`. */
  function RunEnd(s: string, i: nat): (k: nat)
    requires i <= |s|
    ensures i <= k <= |s|
    ensures forall j :: i <= j < k ==> !IsSpace(s[j])
    ensures k < |s| ==> IsSpace(s[k])
    decreases |s| - i
  {
    if i == |s| || IsSpace(s[i]) then i else RunEnd(s, i + 1)
  }

  /** A whole match of `https?:\/\/[^\s]+`: a scheme followed by at least one
      character, and no whitespace anywhere. */
  predicate IsUrl(u: string) {
    && ((|u| > 8 && u[..8] == HttpsScheme) || (|u| > 7 && u[..7] == HttpScheme))
    && forall j :: 0 <= j < |u| ==> !IsSpace(u[j])
  }

  /** The length of the match of the pattern anchored at the start of `s`, or
      0 when the pattern does not match there. The greedy `[^\s]+` makes the
      match the longest URL that `s` starts with: it runs up to the next
      whitespace or the end of the text. */
  function UrlLen(s: string): (n: nat)
    ensures n <= |s|
    ensures n > 0 ==> IsUrl(s[..n])
    ensures n > 0 ==> n == |s| || IsSpace(s[n])
    ensures forall m :: 0 < m <= |s| && IsUrl(s[..m]) ==> 0 < m <= n
  {
    var k := SchemeLen(s);
    UrlPrefixesFixScheme(s);
    if k == 0 then 0
    else
      var e := RunEnd(s, k);
      if e == k then 0
      else
        SchemeThenRunIsUrl(s);
        e
  }

  lemma SchemeThenRunIsUrl(s: string)
    requires 0 < SchemeLen(s) < RunEnd(s, SchemeLen(s))
    ensures IsUrl(s[..RunEnd(s, SchemeLen(s))])
  {
    var k := SchemeLen(s);
    assert forall j :: 0 <= j < k ==> s[j] == (if k == 8 then HttpsScheme else HttpScheme)[j];
  }

  lemma UrlPrefixesFixScheme(s: string)
    ensures forall m :: 0 < m <= |s| && IsUrl(s[..m]) ==>
              0 < SchemeLen(s) < m <= RunEnd(s, SchemeLen(s))
  {
    forall m | 0 < m <= |s| && IsUrl(s[..m])
      ensures 0 < SchemeLen(s) < m <= RunEnd(s, SchemeLen(s))
    {
      UrlPrefixFixesScheme(s, m);
    }
  }

  /** When some prefix of `s` is a URL, the scheme `s` starts with is shorter
      than that prefix, and no whitespace follows the scheme before the
      prefix ends. */
  lemma {:induction false} UrlPrefixFixesScheme(s: string, m: nat)
    requires 0 < m <= |s| && IsUrl(s[..m])
    ensures 0 < SchemeLen(s) < m <= RunEnd(s, SchemeLen(s))
  {
    var u := s[..m];
    if |u| > 8 && u[..8] == HttpsScheme {
      assert s[..8] == u[..8];
    } else {
      assert s[..7] == u[..7];
      if |s| >= 8 && s[..8] == HttpsScheme {
        assert s[4] == u[..7][4];
      }
    }
    var k := SchemeLen(s);
    assert forall j :: k <= j < m ==> !IsSpace(s[j]) by {
      forall j | k <= j < m ensures !IsSpace(s[j]) { assert s[j] == u[j]; }
    }
  }

  /** The characters a segment stands for in the original text. */
  function Source(g: Segment): string {
    match g
    case Plain(c) => [c]
    case Link(u) => u
  }

  /** The original text a segment list stands for. */
  function Flatten(gs: seq<Segment>): string
  {
    if |gs| == 0 then [] else Source(gs[0]) + Flatten(gs[1..])
  }

  /** The regular-expression scan, left to right: where the pattern matches,
      the whole match becomes one link and the scan resumes after it;
      elsewhere one character is kept and the scan moves on by one.
      The segments spell out the text exactly, every link is a whole URL, and
      every link is maximal: what follows it is whitespace. */
  function Scan(s: string): (r: seq<Segment>)
    ensures Flatten(r) == s
    ensures forall j :: 0 <= j < |r| && r[j].Link? ==> IsUrl(r[j].url)
    ensures forall j :: 0 <= j < |r| - 1 && r[j].Link? ==>
              r[j + 1].Plain? && IsSpace(r[j + 1].c)
    decreases |s|
  {
    if |s| == 0 then []
    else
      var n := UrlLen(s);
      if n > 0 then
        var rest := Scan(s[n..]);
        LinkStep(s, n, rest);
        [Link(s[..n])] + rest
      else
        var rest := Scan(s[1..]);
        PlainStep(s, rest);
        [Plain(s[0])] + rest
  }

  /** Well-scanned segments for `s`: they spell `s`, their links are URLs, and
      each link is followed by whitespace. */
  ghost predicate Scanned(s: string, r: seq<Segment>) {
    && Flatten(r) == s
    && (forall j :: 0 <= j < |r| && r[j].Link? ==> IsUrl(r[j].url))
    && (forall j :: 0 <= j < |r| - 1 && r[j].Link? ==> r[j + 1].Plain? && IsSpace(r[j + 1].c))
  }

  /** A URL match of length `n` at the front of `s`, then a scan of the rest. */
  lemma LinkStep(s: string, n: nat, rest: seq<Segment>)
    requires 0 < n <= |s| && IsUrl(s[..n]) && (n == |s| || IsSpace(s[n]))
    requires Scanned(s[n..], rest)
    ensures Scanned(s, [Link(s[..n])] + rest)
  {
    var r := [Link(s[..n])] + rest;
    assert Flatten(r) == s by {
      FlattenCons(Link(s[..n]), rest);
      assert s == s[..n] + s[n..];
    }
    assert forall j :: 0 <= j < |r| && r[j].Link? ==> IsUrl(r[j].url) by {
      assert forall j :: 1 <= j < |r| ==> r[j] == rest[j - 1];
    }
    assert forall j :: 0 <= j < |r| - 1 && r[j].Link? ==> r[j + 1].Plain? && IsSpace(r[j + 1].c) by {
      LinkThenSpace(s, n, rest);
      assert forall j :: 1 <= j < |r| ==> r[j] == rest[j - 1];
    }
  }

  /** One plain character at the front of `s`, then a scan of the rest. */
  lemma PlainStep(s: string, rest: seq<Segment>)
    requires 0 < |s| && Scanned(s[1..], rest)
    ensures Scanned(s, [Plain(s[0])] + rest)
  {
    var r := [Plain(s[0])] + rest;
    assert Flatten(r) == s by {
      FlattenCons(Plain(s[0]), rest);
      assert s == [s[0]] + s[1..];
    }
    assert forall j :: 1 <= j < |r| ==> r[j] == rest[j - 1];
  }

  lemma {:induction false} FlattenCons(g: Segment, rest: seq<Segment>)
    ensures Flatten([g] + rest) == Source(g) + Flatten(rest)
  {
    assert ([g] + rest)[1..] == rest;
  }

  /** What follows a URL match is whitespace, so a scan of the remainder can
      only start with a whitespace character. */
  lemma {:induction false} LinkThenSpace(s: string, n: nat, rest: seq<Segment>)
    requires 0 < n <= |s| && (n == |s| || IsSpace(s[n])) && Flatten(rest) == s[n..]
    requires forall j :: 0 <= j < |rest| && rest[j].Link? ==> IsUrl(rest[j].url)
    ensures |rest| > 0 ==> rest[0].Plain? && IsSpace(rest[0].c)
  {
    if |rest| > 0 {
      var g := rest[0];
      assert rest == [g] + rest[1..];
      FlattenCons(g, rest[1..]);
      var src := Source(g);
      assert |src| > 0;
      assert s[n..] == src + Flatten(rest[1..]);
      assert s[n] == src[0];
    }
  }

  /** Where a segment starts in the original text. */
  function Offset(gs: seq<Segment>, j: nat): nat
    requires j <= |gs|
  {
    |Flatten(gs[..j])|
  }

  /** Segment `j` of `gs` is a link whose run covers position `i` of the text. */
  predicate LinkCovers(gs: seq<Segment>, j: nat, i: nat) {
    j < |gs| && gs[j].Link? && Offset(gs, j) <= i < Offset(gs, j) + |gs[j].url|
  }

  /** Every place where the URL pattern would match lies inside a link, and
      the whole match from there lies inside that same link: no URL is left
      unwrapped or cut short, even one that starts inside another URL's run.
      The lemma names the covering link. */
  lemma {:induction false} UrlStartsAreLinked(s: string, i: nat) returns (j: nat)
    requires i < |s| && UrlLen(s[i..]) > 0
    ensures LinkCovers(Scan(s), j, i)
    ensures i + UrlLen(s[i..]) <= Offset(Scan(s), j) + |Scan(s)[j].url|
    decreases |s|
  {
    var r := Scan(s);
    var n := UrlLen(s);
    if n > 0 {
      var rest := Scan(s[n..]);
      assert r == [Link(s[..n])] + rest;
      if i >= n {
        SuffixOfSuffix(s, n, i);
        var k := UrlStartsAreLinked(s[n..], i - n);
        CoverShift(Link(s[..n]), rest, k, i - n);
        j := k + 1;
      } else {
        assert r[..0] == [];
        MatchEndsWithRun(s, i);
        j := 0;
      }
    } else {
      var rest := Scan(s[1..]);
      assert r == [Plain(s[0])] + rest;
      assert s[0..] == s;
      SuffixOfSuffix(s, 1, i);
      var k := UrlStartsAreLinked(s[1..], i - 1);
      CoverShift(Plain(s[0]), rest, k, i - 1);
      j := k + 1;
    }
  }

  /** A match contains no whitespace. */
  lemma MatchHasNoSpace(s: string)
    ensures forall k :: 0 <= k < UrlLen(s) ==> !IsSpace(s[k])
  {
    var n := UrlLen(s);
    forall k | 0 <= k < n ensures !IsSpace(s[k]) { assert s[..n][k] == s[k]; }
  }

  /** A match starting inside the match at the front of `s` ends where that
      one does, or before. */
  lemma MatchEndsWithRun(s: string, i: nat)
    requires i < UrlLen(s)
    ensures i + UrlLen(s[i..]) <= UrlLen(s)
  {
    var n := UrlLen(s);
    MatchHasNoSpace(s[i..]);
    if n < |s| { assert s[i..][n - i] == s[n]; }
  }

  lemma SuffixOfSuffix(s: string, a: nat, b: nat)
    requires a <= b <= |s|
    ensures s[a..][b - a..] == s[b..]
  {
  }

  lemma {:induction false} CoverShift(g: Segment, rest: seq<Segment>, k: nat, i: nat)
    requires LinkCovers(rest, k, i)
    ensures LinkCovers([g] + rest, k + 1, |Source(g)| + i)
    ensures Offset([g] + rest, k + 1) + |([g] + rest)[k + 1].url| ==
            |Source(g)| + Offset(rest, k) + |rest[k].url|
  {
    OffsetCons(g, rest, k);
    assert ([g] + rest)[k + 1] == rest[k];
  }

  lemma {:induction false} OffsetCons(g: Segment, rest: seq<Segment>, j: nat)
    requires j <= |rest|
    ensures Offset([g] + rest, j + 1) == |Source(g)| + Offset(rest, j)
  {
    assert ([g] + rest)[..j + 1] == [g] + rest[..j];
    assert ([g] + rest[..j])[1..] == rest[..j];
  }

  /** The markup `addMessage` writes for one URL: an anchor whose target and
      text are both the URL, opening in a new tab. */
  function Anchor(u: string): string {
    "<a href=\"" + u + "\" target=\"_blank\" style=\"color: #A5B4FC; text-decoration: underline;\">"
    + u + "</a>"
  }

  /** The markup for a segment list: plain characters as they are, each link
      as its anchor. Without links it is the original text; each link makes
      it strictly longer. */
  function Render(gs: seq<Segment>): (r: string)
    ensures |r| >= |Flatten(gs)|
    ensures (forall j :: 0 <= j < |gs| ==> gs[j].Plain?) ==> r == Flatten(gs)
    ensures (exists j :: 0 <= j < |gs| && gs[j].Link?) ==> |r| > |Flatten(gs)|
  {
    if |gs| == 0 then []
    else
      assert forall j :: 1 <= j < |gs| ==> gs[1..][j - 1] == gs[j];
      (match gs[0] case Plain(c) => [c] case Link(u) => Anchor(u)) + Render(gs[1..])
  }

  /** The markup of a segment followed by others: the segment's own markup,
      its anchor for a link and the character itself otherwise, then the rest.
      This is the rewriting step that lets other lemmas compute rendered
      markup piece by piece. */
  lemma RenderCons(g: Segment, rest: seq<Segment>)
    ensures Render([g] + rest) == (if g.Link? then Anchor(g.url) else [g.c]) + Render(rest)
  {
    assert ([g] + rest)[1..] == rest;
  }

  /** The formatted text of a message: never shorter than the text, and the
      text itself when the scan found no URL. */
  function Linkified(text: string): (r: string)
    ensures |r| >= |text|
    ensures (forall j :: 0 <= j < |Scan(text)| ==> Scan(text)[j].Plain?) ==> r == text
  {
    Render(Scan(text))
  }

  /** True when the URL pattern matches nowhere in `s`. */
  predicate NoUrl(s: string) {
    forall i :: 0 <= i < |s| ==> UrlLen(s[i..]) == 0
  }

  /** Text without any URL is shown exactly as written. */
  lemma {:induction false} LinkifiedWithoutUrl(s: string)
    requires NoUrl(s)
    ensures Linkified(s) == s
    decreases |s|
  {
    if |s| > 0 {
      assert s[0..] == s;
      assert NoUrl(s[1..]) by {
        forall i | 0 <= i < |s| - 1 ensures UrlLen(s[1..][i..]) == 0 {
          assert s[1..][i..] == s[i + 1..];
        }
      }
      LinkifiedWithoutUrl(s[1..]);
      assert Scan(s) == [Plain(s[0])] + Scan(s[1..]);
      assert ([Plain(s[0])] + Scan(s[1..]))[1..] == Scan(s[1..]);
      assert s == [s[0]] + s[1..];
    }
  }

  /** A message is shown exactly as written if and only if the URL pattern
      matches nowhere in it. */
  lemma {:induction false} LinkifiedUnchangedIffNoUrl(s: string)
    ensures Linkified(s) == s <==> NoUrl(s)
  {
    if NoUrl(s) {
      LinkifiedWithoutUrl(s);
    } else {
      var i :| 0 <= i < |s| && UrlLen(s[i..]) != 0;
      var j := UrlStartsAreLinked(s, i);
      assert Scan(s)[j].Link?;
    }
  }

  /** Every URL in a message, wherever it starts, lies inside one link, from
      its first character to its last. */
  lemma {:induction false} EveryUrlIsLinked(s: string, i: nat, m: nat) returns (j: nat)
    requires i + m <= |s| && IsUrl(s[i..i + m])
    ensures LinkCovers(Scan(s), j, i)
    ensures i + m <= Offset(Scan(s), j) + |Scan(s)[j].url|
  {
    assert s[i..][..m] == s[i..i + m];
    assert |s[i..i + m]| > 0;
    j := UrlStartsAreLinked(s, i);
  }

  /** Text without a URL that ends in whitespace is copied through as it is,
      whatever follows it. */
  lemma {:induction false} PlainPrefixIsKept(p: string, w: string)
    requires NoUrl(p) && (|p| == 0 || IsSpace(p[|p| - 1]))
    ensures Linkified(p + w) == p + Linkified(w)
    decreases |p|
  {
    if |p| == 0 {
      assert p + w == w;
    } else {
      var t := p[1..];
      NoUrlTail(p);
      LastSpaceTail(p);
      PlainPrefixIsKept(t, w);
      PlainStartIsNoUrl(p, w);
      PlainHeadOfConcat(p, w);
      ConsThenConcat(p, Linkified(w));
    }
  }

  /** The rest of a text ending in whitespace is empty or ends in whitespace. */
  lemma LastSpaceTail(p: string)
    requires |p| > 0 && IsSpace(p[|p| - 1])
    ensures |p[1..]| == 0 || IsSpace(p[1..][|p[1..]| - 1])
  {
  }

  /** Where no match starts `p + w`, the first character of `p` is copied. */
  lemma PlainHeadOfConcat(p: string, w: string)
    requires |p| > 0 && UrlLen(p + w) == 0
    ensures Linkified(p + w) == [p[0]] + Linkified(p[1..] + w)
  {
    var s := p + w;
    TailOfConcat(p, w);
    LinkifiedPlainHead(s);
  }

  lemma TailOfConcat(p: string, w: string)
    requires |p| > 0
    ensures (p + w)[1..] == p[1..] + w && (p + w)[0] == p[0]
  {
  }

  lemma ConsThenConcat(p: string, v: string)
    requires |p| > 0
    ensures [p[0]] + (p[1..] + v) == p + v
  {
    assert p == [p[0]] + p[1..];
  }

  /** Where no match starts, the first character is copied through. */
  lemma LinkifiedPlainHead(s: string)
    requires |s| > 0 && UrlLen(s) == 0
    ensures Linkified(s) == [s[0]] + Linkified(s[1..])
  {
    assert Scan(s) == [Plain(s[0])] + Scan(s[1..]);
    RenderCons(Plain(s[0]), Scan(s[1..]));
  }

  lemma NoUrlTail(p: string)
    requires |p| > 0 && NoUrl(p)
    ensures NoUrl(p[1..])
  {
    forall i | 0 <= i < |p| - 1 ensures UrlLen(p[1..][i..]) == 0 {
      assert p[1..][i..] == p[i + 1..];
    }
  }

  /** No URL match starts a text that begins with URL-free text ending in
      whitespace: a match cannot reach past that whitespace. */
  lemma PlainStartIsNoUrl(p: string, w: string)
    requires |p| > 0 && NoUrl(p) && IsSpace(p[|p| - 1])
    ensures UrlLen(p + w) == 0
  {
    var s := p + w;
    var n := UrlLen(s);
    assert p[0..] == p;
    MatchHasNoSpace(s);
    assert s[|p| - 1] == p[|p| - 1];
    assert s[..n] == p[..n];
  }

  /** A URL followed by whitespace, or by nothing, becomes one anchor, and the
      text after it is formatted on its own. */
  lemma {:induction false} UrlThenSpaceIsOneAnchor(u: string, q: string)
    requires IsUrl(u) && (|q| == 0 || IsSpace(q[0]))
    ensures Linkified(u + q) == Anchor(u) + Linkified(q)
  {
    var s := u + q;
    var n := UrlLen(s);
    assert s[..|u|] == u;
    MatchHasNoSpace(s);
    if |q| > 0 { assert s[|u|] == q[0]; }
    assert s[n..] == q;
    RenderCons(Link(u), Scan(q));
  }

  /** In a message that mixes text and a URL, the text before the URL is kept
      as written, the URL becomes one anchor whose target and text are the
      URL, and the rest is formatted on its own. */
  lemma {:induction false} LinkifiedMixed(p: string, u: string, q: string)
    requires NoUrl(p) && (|p| == 0 || IsSpace(p[|p| - 1]))
    requires IsUrl(u) && (|q| == 0 || IsSpace(q[0]))
    ensures Linkified(p + u + q) == p + Anchor(u) + Linkified(q)
  {
    ConcatAssoc(p, u, q);
    PlainPrefixIsKept(p, u + q);
    UrlThenSpaceIsOneAnchor(u, q);
    ConcatAssoc(p, Anchor(u), Linkified(q));
  }

  lemma ConcatAssoc(a: string, b: string, c: string)
    ensures a + b + c == a + (b + c)
  {
  }

  /** Text in which no character is an `h` holds no URL. */
  lemma NoUrlWithoutH(s: string)
    requires forall i :: 0 <= i < |s| ==> s[i] != 'h'
    ensures NoUrl(s)
  {
    forall i | 0 <= i < |s| ensures UrlLen(s[i..]) == 0 {
      SchemeStartsWithH(s[i..]);
      assert s[i..][0] == s[i];
    }
  }

  lemma SchemeStartsWithH(t: string)
    ensures SchemeLen(t) > 0 ==> t[0] == 'h'
  {
    if |t| >= 8 && t[..8] == HttpsScheme {
      assert t[..8][0] == t[0];
    } else if |t| >= 7 && t[..7] == HttpScheme {
      assert t[..7][0] == t[0];
    }
  }

  /** A worked message: the link in the middle is wrapped, the words around
      it are kept. */
  lemma LinkifiedExample()
    ensures Linkified("Visit https://example.com for more") ==
            "Visit " + Anchor("https://example.com") + " for more"
  {
    var p, u, q := "Visit ", "https://example.com", " for more";
    ExampleWords();
    ExampleUrl();
    ExampleConcat();
    LinkifiedWithoutUrl(q);
    LinkifiedMixed(p, u, q);
  }

  lemma ExampleConcat()
    ensures "Visit " + "https://example.com" + " for more" == "Visit https://example.com for more"
  {
  }

  lemma ExampleWords()
    ensures NoUrl("Visit ") && IsSpace("Visit "[5])
    ensures NoUrl(" for more") && IsSpace(" for more"[0])
  {
    NoUrlWithoutH("Visit ");
    NoUrlWithoutH(" for more");
  }

  lemma ExampleUrl()
    ensures IsUrl("https://example.com")
  {
    PrintableIsNotSpace("https://example.com");
    assert "https://example.com"[..8] == HttpsScheme;
  }

  /** Text of printable ASCII characters holds no whitespace. */
  lemma PrintableIsNotSpace(s: string)
    requires forall j :: 0 <= j < |s| ==> '!' <= s[j] <= '~'
    ensures forall j :: 0 <= j < |s| ==> !IsSpace(s[j])
  {
  }

  /** The pattern matches a whole URL in full. */
  lemma {:induction false} UrlLenOfUrl(u: string)
    requires IsUrl(u)
    ensures UrlLen(u) == |u|
  {
    var k := SchemeLen(u);
    if |u| > 8 && u[..8] == HttpsScheme {
      assert k == 8;
    } else {
      assert u[..7] == HttpScheme;
      assert u[4] == u[..7][4] == ':';
      assert |u| >= 8 ==> u[..8][4] == ':';
      assert k == 7;
    }
    assert RunEnd(u, k) == |u|;
  }

  /** A text that is one URL and nothing else becomes exactly one anchor
      around it. */
  lemma {:induction false} WholeUrlIsOneAnchor(u: string)
    requires IsUrl(u)
    ensures Scan(u) == [Link(u)]
    ensures Linkified(u) == Anchor(u)
  {
    UrlLenOfUrl(u);
    assert u[..|u|] == u;
    assert Scan(u) == [Link(u)] + Scan(u[|u|..]);
    assert u[|u|..] == [];
    assert [Link(u)][1..] == [];
    assert Render([Link(u)]) == Anchor(u) + Render([]);
  }
}

=== FILE: nav_sections.dfy ===
/** Which navigation link is highlighted as the page scrolls. Two versions of
    the rule exist: `updateActiveNavLinkOnScroll` in `smooth-scroll.js`
    (the section whose band contains a probe 200 px below the top of the
    viewport) and `highlightActiveSection` in `main.js` (the section whose top
    is at most 300 px below the top of the viewport). Both walk the
    `section[id]` elements in document order and let the last match win,
    then leave exactly the links whose `href` equals the result active.

    The DOM reads are parameters: each section's `id`, `offsetTop` and
    `offsetHeight` (integers in the DOM), and `window.scrollY` (a real). */
module NavSections {
  import opened Wrappers

  datatype Section = Section(id: string, top: int, height: int)

  /** A link of `.nav-links`: its `href` attribute and whether it has the
      `active` class. */
  datatype NavLink = NavLink(href: string, active: bool)

  /** The index of the last section satisfying `p`: the value the forEach
      loops end with, since each match overwrites the previous one. */
  function LastWhere(ss: seq<Section>, p: Section -> bool): (r: Option<nat>)
    ensures r.Some? ==> r.value < |ss| && p(ss[r.value])
                        && forall j :: r.value < j < |ss| ==> !p(ss[j])
    ensures r.None? <==> forall j :: 0 <= j < |ss| ==> !p(ss[j])
  {
    if |ss| == 0 then None
    else if p(ss[|ss| - 1]) then Some(|ss| - 1)
    else
      var r := LastWhere(ss[..|ss| - 1], p);
      assert forall j :: 0 <= j < |ss| - 1 ==> ss[..|ss| - 1][j] == ss[j];
      r
  }

  // ----- smooth-scroll.js -----

  const ScrollProbe: real := 200.0

  /** The band test of `updateActiveNavLinkOnScroll`. */
  predicate InBand(s: Section, scrollY: real) {
    s.top as real <= scrollY + ScrollProbe < (s.top + s.height) as real
  }

  /** The hash of the last section whose band holds `scrollY + 200`, or the
      empty string when no band does. */
  function CurrentSectionByBand(ss: seq<Section>, scrollY: real): (current: string)
    ensures current == "" <==> forall j :: 0 <= j < |ss| ==> !InBand(ss[j], scrollY)
    ensures current != "" ==>
      exists k :: 0 <= k < |ss| && InBand(ss[k], scrollY) && current == "#" + ss[k].id
                  && forall j :: k < j < |ss| ==> !InBand(ss[j], scrollY)
  {
    match LastWhere(ss, s => InBand(s, scrollY))
    case None => ""
    case Some(k) => "#" + ss[k].id
  }

  /** The link loop shared by both scripts and `updateActiveNavLink`: every
      link loses `active`, then regains it exactly when its `href` is
      `target`. */
  function Highlight(links: seq<NavLink>, target: string): (r: seq<NavLink>)
    ensures |r| == |links|
    ensures forall i :: 0 <= i < |r| ==> r[i].href == links[i].href
    ensures forall i :: 0 <= i < |r| ==> (r[i].active <==> links[i].href == target)
  {
    seq(|links|, i requires 0 <= i < |links| => NavLink(links[i].href, links[i].href == target))
  }

  /** `updateActiveNavLinkOnScroll`: the links after one scroll event. */
  function OnScrollSmooth(ss: seq<Section>, links: seq<NavLink>, scrollY: real): (r: seq<NavLink>)
    ensures |r| == |links|
    ensures forall i :: 0 <= i < |r| ==>
              (r[i].active <==> links[i].href == CurrentSectionByBand(ss, scrollY))
  {
    Highlight(links, CurrentSectionByBand(ss, scrollY))
  }

  /** `updateActiveNavLink(targetId)` after an anchor click. */
  function ActivateTarget(links: seq<NavLink>, targetId: string): (r: seq<NavLink>)
    ensures |r| == |links|
    ensures forall i :: 0 <= i < |r| ==> (r[i].active <==> links[i].href == targetId)
  {
    Highlight(links, targetId)
  }

  // ----- main.js -----

  const ReachOffset: int := 300

  /** The threshold test of `highlightActiveSection`; the height is read by
      the script but plays no part. */
  predicate Reached(s: Section, scrollY: real) {
    scrollY >= (s.top - ReachOffset) as real
  }

  /** The id (without `#`) of the last section already reached, or the empty
      string when none is. */
  function CurrentSectionByThreshold(ss: seq<Section>, scrollY: real): (current: string)
    ensures (forall j :: 0 <= j < |ss| ==> !Reached(ss[j], scrollY)) ==> current == ""
    ensures (exists j :: 0 <= j < |ss| && Reached(ss[j], scrollY)) ==>
      exists k :: 0 <= k < |ss| && Reached(ss[k], scrollY) && current == ss[k].id
                  && forall j :: k < j < |ss| ==> !Reached(ss[j], scrollY)
  {
    match LastWhere(ss, s => Reached(s, scrollY))
    case None => ""
    case Some(k) => ss[k].id
  }

  /** `highlightActiveSection`: a link is active exactly when its `href` is
      `'#' + current`, so with no section reached the links to `#` light up. */
  function OnScrollMain(ss: seq<Section>, links: seq<NavLink>, scrollY: real): (r: seq<NavLink>)
    ensures |r| == |links|
    ensures forall i :: 0 <= i < |r| ==>
              (r[i].active <==> links[i].href == "#" + CurrentSectionByThreshold(ss, scrollY))
    ensures (forall j :: 0 <= j < |ss| ==> !Reached(ss[j], scrollY)) ==>
              forall i :: 0 <= i < |r| ==> (r[i].active <==> links[i].href == "#")
  {
    Highlight(links, "#" + CurrentSectionByThreshold(ss, scrollY))
  }

  // ----- Properties -----

  /** The highlighted set depends only on the target, not on which links were
      active before, so repeating the update changes nothing. */
  lemma HighlightForgetsPast(links: seq<NavLink>, target: string, other: string)
    ensures Highlight(Highlight(links, other), target) == Highlight(links, target)
  {
  }

  /** With distinct hrefs, at most one link is active after an update. */
  lemma HighlightAtMostOne(links: seq<NavLink>, target: string, i: nat, j: nat)
    requires forall a, b :: 0 <= a < b < |links| ==> links[a].href != links[b].href
    requires i < |links| && j < |links|
    requires Highlight(links, target)[i].active && Highlight(links, target)[j].active
    ensures i == j
  {
  }

  /** Scrolling down never moves the threshold rule's choice to an earlier
      section: the set of reached sections only grows. */
  lemma {:induction false} ThresholdChoiceMovesForward(ss: seq<Section>, y1: real, y2: real)
    requires y1 <= y2
    requires LastWhere(ss, s => Reached(s, y1)).Some?
    ensures LastWhere(ss, s => Reached(s, y2)).Some?
    ensures LastWhere(ss, s => Reached(s, y1)).value <= LastWhere(ss, s => Reached(s, y2)).value
  {
    var k1 := LastWhere(ss, s => Reached(s, y1)).value;
    assert Reached(ss[k1], y2);
  }

  /** When the section bands do not overlap, the band rule's "last match wins"
      picks the one section containing the probe. */
  lemma BandChoiceIsUnique(ss: seq<Section>, scrollY: real, k: nat)
    requires forall a, b :: 0 <= a < b < |ss| ==> (ss[a].top + ss[a].height) <= ss[b].top
    requires k < |ss| && InBand(ss[k], scrollY)
    ensures CurrentSectionByBand(ss, scrollY) == "#" + ss[k].id
  {
    var r := LastWhere(ss, s => InBand(s, scrollY));
    assert r.Some?;
    if r.value > k {
      assert (ss[k].top + ss[k].height) <= ss[r.value].top;
    }
  }
}

=== FILE: navigation.dfy ===
/** The mobile menu and the in-page anchor handlers. Three scripts attach a
    click handler to every `a[href^="#"]`: `initEnhancedSmoothScroll` in
    `smooth-scroll.js`, `initNavLinks` in `main.js` and `initSmoothScroll` in
    `animations.js`; each is modelled on its own as a function from what the
    handler reads to what it changes. `main.js` also owns the menu toggle, the
    outside-click close and the AOS options.

    A target lookup (`document.querySelector(href)`) is a parameter: None
    when no element matches, otherwise the position the handler reads. */
module Navigation {
  import opened Wrappers
  import NavSections

  /** The three hamburger bars: drawn as a cross while the menu is open,
      as bars otherwise. Only `main.js` sets them. */
  datatype Bars = Hamburger | Cross

  /** The menu's classes: `active` on `.nav-links` and on
      `.mobile-menu-toggle`, `menu-open` on the body, and the bar styling. */
  datatype Menu = Menu(navActive: bool, toggleActive: bool, bodyMenuOpen: bool, bars: Bars)

  /** Where a click sends the window: whether the handler cancels the
      browser's own jump to the hash, and where it scrolls to, if anywhere. */
  datatype Jump = Jump(preventDefault: bool, scrollTo: Option<real>)

  /** What a click handler does: its jump, and the menu and nav links it
      leaves behind. */
  datatype ClickEffect = ClickEffect(jump: Jump, menu: Menu, links: seq<NavSections.NavLink>)

  function BarsFor(open: bool): Bars {
    if open then Cross else Hamburger
  }

  // ----- main.js: initMobileMenu -----

  /** The toggle's click handler: flips `active` on the list and on the
      button, then draws the bars from the list's new state. */
  function ToggleMenu(m: Menu): (r: Menu)
    ensures r.navActive == !m.navActive && r.toggleActive == !m.toggleActive
    ensures r.bars == BarsFor(r.navActive)
    ensures r.bodyMenuOpen == m.bodyMenuOpen
  {
    var navActive := !m.navActive;
    m.(navActive := navActive, toggleActive := !m.toggleActive, bars := BarsFor(navActive))
  }

  /** The document's click handler: a click outside both the toggle and the
      list closes an open menu; any other click changes nothing. */
  function OutsideClick(m: Menu, inToggle: bool, inNav: bool): (r: Menu)
    ensures (!inToggle && !inNav && m.navActive) ==>
              !r.navActive && !r.toggleActive && r.bars == Hamburger && r.bodyMenuOpen == m.bodyMenuOpen
    ensures !(!inToggle && !inNav && m.navActive) ==> r == m
  {
    if !inToggle && !inNav && m.navActive then
      m.(navActive := false, toggleActive := false, bars := Hamburger)
    else m
  }

  /** What `main.js` keeps true: the button's class and the bars follow the
      list's class. */
  predicate MenuConsistent(m: Menu) {
    m.toggleActive == m.navActive && m.bars == BarsFor(m.navActive)
  }

  /** The initial page: menu closed, bars drawn as bars. */
  const ClosedMenu: Menu := Menu(false, false, false, Hamburger)

  /** The two `main.js` menu handlers keep the button, the list and the bars
      in step, and a toggle click followed by another restores the menu. */
  lemma MenuHandlersKeepConsistency(m: Menu, inToggle: bool, inNav: bool)
    requires MenuConsistent(m)
    ensures MenuConsistent(ToggleMenu(m))
    ensures MenuConsistent(OutsideClick(m, inToggle, inNav))
    ensures ToggleMenu(ToggleMenu(m)) == m
  {
  }

  // ----- main.js: initNavLinks -----

  const NavLinkOffset: int := 100

  /** The `main.js` anchor handler. A bare `#` is left to the browser.
      Otherwise the jump is cancelled; with a target, an open menu is closed
      (the button and its bars only if the button exists) and the window
      scrolls to the target's `offsetTop - 100`. */
  function MainNavLinkClick(href: string, targetTop: Option<int>, hasNav: bool, hasToggle: bool,
                            m: Menu, links: seq<NavSections.NavLink>): (r: ClickEffect)
    ensures href == "#" ==> r == ClickEffect(Jump(false, None), m, links)
    ensures href != "#" ==> r.jump.preventDefault && r.links == links
    ensures href != "#" && targetTop.None? ==> r.jump.scrollTo.None? && r.menu == m
    ensures href != "#" && targetTop.Some? ==>
      && r.jump.scrollTo == Some((targetTop.value - NavLinkOffset) as real)
      && (hasNav && m.navActive ==> !r.menu.navActive)
      && (hasNav && m.navActive && hasToggle ==> !r.menu.toggleActive && r.menu.bars == Hamburger)
      && (hasNav && m.navActive && !hasToggle ==> r.menu.toggleActive == m.toggleActive && r.menu.bars == m.bars)
      && r.menu.bodyMenuOpen == m.bodyMenuOpen
      && (!(hasNav && m.navActive) ==> r.menu == m)
  {
    if href == "#" then ClickEffect(Jump(false, None), m, links)
    else
      match targetTop
      case None => ClickEffect(Jump(true, None), m, links)
      case Some(top) =>
        var menu :=
          if hasNav && m.navActive then
            if hasToggle then m.(navActive := false, toggleActive := false, bars := Hamburger)
            else m.(navActive := false)
          else m;
        ClickEffect(Jump(true, Some((top - NavLinkOffset) as real)), menu, links)
  }

  /** Unlike the `smooth-scroll.js` handler, the `main.js` one keeps its own
      menu styling in step: closing the menu also redraws the bars. */
  lemma MainNavLinkKeepsConsistency(href: string, targetTop: Option<int>, hasNav: bool, m: Menu,
                                    links: seq<NavSections.NavLink>)
    requires MenuConsistent(m)
    ensures MenuConsistent(MainNavLinkClick(href, targetTop, hasNav, true, m, links).menu)
  {
  }

  // ----- smooth-scroll.js: initEnhancedSmoothScroll -----

  /** The fixed header's height the scroll leaves room for: 60 px on narrow
      windows (at most 768 px wide), 80 px otherwise. */
  function HeaderOffset(innerWidth: int): (h: int)
    ensures innerWidth <= 768 ==> h == 60
    ensures innerWidth > 768 ==> h == 80
  {
    if innerWidth <= 768 then 60 else 80
  }

  /** The `smooth-scroll.js` anchor handler. A bare `#` and a missing target
      are left to the browser. Otherwise the jump is cancelled, the window
      scrolls to the target's document position less the header height, an
      open menu is closed (button and body class included, but the bars are
      not redrawn) and the links are highlighted for the target. */
  function SmoothAnchorClick(href: string, targetRectTop: Option<real>, pageYOffset: real,
                             innerWidth: int, hasNav: bool, hasToggle: bool, m: Menu,
                             links: seq<NavSections.NavLink>): (r: ClickEffect)
    ensures (href == "#" || targetRectTop.None?) ==> r == ClickEffect(Jump(false, None), m, links)
    ensures (href != "#" && targetRectTop.Some?) ==>
      && r.jump.preventDefault
      && r.jump.scrollTo == Some(targetRectTop.value + pageYOffset - HeaderOffset(innerWidth) as real)
      && r.links == NavSections.ActivateTarget(links, href)
      && r.menu.bars == m.bars
      && (hasNav && m.navActive ==> !r.menu.navActive && !r.menu.bodyMenuOpen)
      && (hasNav && m.navActive && hasToggle ==> !r.menu.toggleActive)
      && (hasNav && m.navActive && !hasToggle ==> r.menu.toggleActive == m.toggleActive)
      && (!(hasNav && m.navActive) ==> r.menu == m)
  {
    if href == "#" then ClickEffect(Jump(false, None), m, links)
    else
      match targetRectTop
      case None => ClickEffect(Jump(false, None), m, links)
      case Some(rectTop) =>
        var top := rectTop + pageYOffset - HeaderOffset(innerWidth) as real;
        var menu :=
          if hasNav && m.navActive then
            m.(navActive := false, toggleActive := if hasToggle then false else m.toggleActive,
               bodyMenuOpen := false)
          else m;
        ClickEffect(Jump(true, Some(top)), menu, NavSections.ActivateTarget(links, href))
  }

  /** Closing the menu from `smooth-scroll.js` leaves the bars drawn as a
      cross: the button and the list are closed but `main.js`'s bar styling
      no longer matches them. */
  lemma SmoothCloseLeavesCross(href: string, rectTop: real, pageYOffset: real, innerWidth: int,
                               links: seq<NavSections.NavLink>)
    requires href != "#"
    ensures var m := ToggleMenu(ClosedMenu);
            var r := SmoothAnchorClick(href, Some(rectTop), pageYOffset, innerWidth, true, true, m, links);
            MenuConsistent(m) && !r.menu.navActive && !MenuConsistent(r.menu)
  {
  }

  // ----- animations.js: initSmoothScroll -----

  const SimpleOffset: int := 80

  /** The `animations.js` anchor handler: the jump is always cancelled, even
      for a bare `#`; a bare `#` or a missing target then stops, and any other
      target is scrolled to at `offsetTop - 80`. */
  function SimpleAnchorClick(href: string, targetTop: Option<int>): (r: Jump)
    ensures r.preventDefault
    ensures (href == "#" || targetTop.None?) <==> r.scrollTo.None?
    ensures r.scrollTo.Some? ==> r.scrollTo.value == (targetTop.value - SimpleOffset) as real
  {
    if href == "#" then Jump(true, None)
    else
      match targetTop
      case None => Jump(true, None)
      case Some(top) => Jump(true, Some((top - SimpleOffset) as real))
  }

  /** The `main.js` and `animations.js` handlers agree on a real target up to
      the header allowance (100 against 80 px); on a bare `#` they differ in
      exactly one thing, whether the browser's jump is cancelled; and on a
      missing target both cancel it and stay put. */
  lemma AnchorHandlersCompared(href: string, targetTop: Option<int>, m: Menu,
                               links: seq<NavSections.NavLink>)
    ensures var main := MainNavLinkClick(href, targetTop, true, true, m, links).jump;
            var simple := SimpleAnchorClick(href, targetTop);
            && (href != "#" && targetTop.Some? ==>
                  main.preventDefault && simple.preventDefault
                  && main.scrollTo.Some? && simple.scrollTo.Some?
                  && simple.scrollTo.value - main.scrollTo.value == (NavLinkOffset - SimpleOffset) as real)
            && (href == "#" ==> !main.preventDefault && simple.preventDefault
                                && main.scrollTo == simple.scrollTo == None)
            && (href != "#" && targetTop.None? ==> main == simple == Jump(true, None))
  {
  }

  // ----- main.js: initAOS -----

  /** The options `initAOS` passes to `AOS.init`, or NotLoaded when the
      library is absent and nothing is called. */
  datatype AosInit =
    | NotLoaded
    | Disabled
    | Animate(duration: int, easing: string, once: bool, mirror: bool, offset: int)

  function AosOptions(aosDefined: bool, innerWidth: int): (r: AosInit)
    ensures !aosDefined <==> r.NotLoaded?
    ensures aosDefined ==> (r.Disabled? <==> innerWidth < 768)
    ensures r.Animate? ==> r.once != r.mirror && (r.once <==> innerWidth < 992)
    ensures r.Animate? ==> r.duration == 800 && r.easing == "ease-out" && r.offset == 100
  {
    if !aosDefined then NotLoaded
    else if innerWidth < 768 then Disabled
    else Animate(800, "ease-out", innerWidth < 992, innerWidth >= 992, 100)
  }
}

=== FILE: reveal.dfy ===
/** Reveal-on-scroll class rules. Each element's class list is a set of
    names; an observer callback is modelled one entry at a time, and the life
    of one element as the sequence of `isIntersecting` values its entries
    carry, oldest first (entries for different elements do not interact).

    - `smooth-scroll.js` `initScrollAnimations`: an intersecting entry adds
      `visible` and `in-view`; nothing removes them.
    - `smooth-scroll.js` `updateScrollAnimations`: on scroll, an element far
      enough inside the viewport gains `visible`; nothing removes it.
    - `animations.js` `initScrollAnimations`: an intersecting entry adds
      `visible`, a non-intersecting one removes it unless the element carries
      a non-empty `data-animate-once`.
    - `animations.js` `animateSkillBars`: the first intersecting entry sets
      the bar's fill width and stops observing the bar.
    - `animations.js` character split: the text becomes one span per
      character, all shown at the first intersecting entry. */
module Reveal {
  import opened Wrappers

  type Classes = set<string>

  const Visible: string := "visible"
  const InView: string := "in-view"

  // ----- smooth-scroll.js: the observer of initScrollAnimations -----

  function ObserveSticky(cs: Classes, intersecting: bool): (r: Classes)
    ensures intersecting ==> r == cs + {Visible, InView}
    ensures !intersecting ==> r == cs
  {
    if intersecting then cs + {Visible, InView} else cs
  }

  /** The classes after a history of entries, oldest first. */
  function ReplaySticky(cs: Classes, hs: seq<bool>): Classes {
    if |hs| == 0 then cs else ObserveSticky(ReplaySticky(cs, hs[..|hs| - 1]), hs[|hs| - 1])
  }

  /** The sticky observer only adds: after any history the element has
      exactly its old classes, plus `visible` and `in-view` if it has ever
      intersected. */
  lemma {:induction false} StickyRevealIsMonotone(cs: Classes, hs: seq<bool>)
    ensures ReplaySticky(cs, hs) ==
            cs + (if exists i :: 0 <= i < |hs| && hs[i] then {Visible, InView} else {})
  {
    if |hs| > 0 {
      var init := hs[..|hs| - 1];
      StickyRevealIsMonotone(cs, init);
      if exists i :: 0 <= i < |hs| && hs[i] {
        var i :| 0 <= i < |hs| && hs[i];
        if i < |hs| - 1 { assert init[i]; }
      } else {
        assert forall i :: 0 <= i < |init| ==> !init[i] by {
          forall i | 0 <= i < |init| ensures !init[i] { assert init[i] == hs[i]; }
        }
      }
    }
  }

  // ----- smooth-scroll.js: updateScrollAnimations -----

  /** What the scroll handler reads of an element: its bounding-box top
      relative to the viewport and its `offsetHeight`. */
  datatype Box = Box(rectTop: real, height: int)

  /** The element's document top, plus 30% of its height, lies above the
      bottom of the viewport. */
  predicate FarEnoughIn(b: Box, scrollY: real, innerHeight: int) {
    scrollY + innerHeight as real > (b.rectTop + scrollY) + 0.3 * b.height as real
  }

  function OnScrollReveal(els: seq<Classes>, boxes: seq<Box>, scrollY: real, innerHeight: int)
    : (r: seq<Classes>)
    requires |boxes| == |els|
    ensures |r| == |els|
    ensures forall i :: 0 <= i < |r| ==>
              r[i] == (if FarEnoughIn(boxes[i], scrollY, innerHeight) then els[i] + {Visible} else els[i])
  {
    seq(|els|, i requires 0 <= i < |els| =>
      if FarEnoughIn(boxes[i], scrollY, innerHeight) then els[i] + {Visible} else els[i])
  }

  /** One scroll event: what the handler reads. */
  datatype ScrollFrame = ScrollFrame(boxes: seq<Box>, scrollY: real, innerHeight: int)

  function ReplayScroll(els: seq<Classes>, frames: seq<ScrollFrame>): seq<Classes>
    requires forall k :: 0 <= k < |frames| ==> |frames[k].boxes| == |els|
    decreases |frames|
  {
    if |frames| == 0 then els
    else
      var f := frames[0];
      ReplayScroll(OnScrollReveal(els, f.boxes, f.scrollY, f.innerHeight), frames[1..])
  }

  /** Scrolling only ever adds classes: whatever an element had before a run
      of scroll events, it still has after, `visible` included. */
  lemma {:induction false} ScrollRevealIsMonotone(els: seq<Classes>, frames: seq<ScrollFrame>)
    requires forall k :: 0 <= k < |frames| ==> |frames[k].boxes| == |els|
    ensures |ReplayScroll(els, frames)| == |els|
    ensures forall i :: 0 <= i < |els| ==> els[i] <= ReplayScroll(els, frames)[i]
    decreases |frames|
  {
    if |frames| > 0 {
      var f := frames[0];
      var next := OnScrollReveal(els, f.boxes, f.scrollY, f.innerHeight);
      ScrollRevealIsMonotone(next, frames[1..]);
    }
  }

  /** The scroll test does not depend on how far the page is scrolled: the
      scroll offset is added to the box top and to the viewport bottom
      alike. */
  lemma FarEnoughInIgnoresScroll(b: Box, y1: real, y2: real, innerHeight: int)
    ensures FarEnoughIn(b, y1, innerHeight) == FarEnoughIn(b, y2, innerHeight)
  {
  }

  // ----- animations.js: the observer of initScrollAnimations -----

  /** An `.animate-on-scroll` element: its classes and its
      `data-animate-once` attribute, if any. */
  datatype Animated = Animated(classes: Classes, animateOnce: Option<string>)

  /** `!dataset.animateOnce` is false only for a present, non-empty value. */
  predicate StaysRevealed(a: Animated) {
    a.animateOnce.Some? && a.animateOnce.value != ""
  }

  function ObserveAnimated(a: Animated, intersecting: bool): (r: Animated)
    ensures r.animateOnce == a.animateOnce
    ensures intersecting ==> r.classes == a.classes + {Visible}
    ensures !intersecting && !StaysRevealed(a) ==> r.classes == a.classes - {Visible}
    ensures !intersecting && StaysRevealed(a) ==> r == a
  {
    if intersecting then a.(classes := a.classes + {Visible})
    else if !StaysRevealed(a) then a.(classes := a.classes - {Visible})
    else a
  }

  function ReplayAnimated(a: Animated, hs: seq<bool>): Animated {
    if |hs| == 0 then a else ObserveAnimated(ReplayAnimated(a, hs[..|hs| - 1]), hs[|hs| - 1])
  }

  /** Without `data-animate-once`, visibility tracks the latest entry. */
  lemma RepeatingRevealFollowsLastEntry(a: Animated, hs: seq<bool>)
    requires !StaysRevealed(a) && |hs| > 0
    ensures Visible in ReplayAnimated(a, hs).classes <==> hs[|hs| - 1]
  {
    ReplayKeepsAttribute(a, hs[..|hs| - 1]);
  }

  lemma {:induction false} ReplayKeepsAttribute(a: Animated, hs: seq<bool>)
    ensures ReplayAnimated(a, hs).animateOnce == a.animateOnce
  {
    if |hs| > 0 {
      ReplayKeepsAttribute(a, hs[..|hs| - 1]);
    }
  }

  /** With a non-empty `data-animate-once`, the element is visible after a
      history exactly when it was visible before or has ever intersected. */
  lemma {:induction false} OnceRevealIsMonotone(a: Animated, hs: seq<bool>)
    requires StaysRevealed(a)
    ensures Visible in ReplayAnimated(a, hs).classes <==>
            (Visible in a.classes || exists i :: 0 <= i < |hs| && hs[i])
  {
    if |hs| > 0 {
      var init := hs[..|hs| - 1];
      OnceRevealIsMonotone(a, init);
      ReplayKeepsAttribute(a, init);
      if exists i :: 0 <= i < |hs| && hs[i] {
        var i :| 0 <= i < |hs| && hs[i];
        if i < |hs| - 1 { assert init[i]; }
      } else {
        assert forall i :: 0 <= i < |init| ==> !init[i] by {
          forall i | 0 <= i < |init| ensures !init[i] { assert init[i] == hs[i]; }
        }
      }
    }
  }

  // ----- animations.js: animateSkillBars -----

  const DefaultProgress: string := "75%"

  /** A `.skill-bar`: its `data-progress`, whether it holds a `.progress`
      fill, the fill's inline width, and whether it is still observed. */
  datatype SkillBar = SkillBar(progress: Option<string>, hasFill: bool, fillWidth: Option<string>,
                               observed: bool)

  /** `dataset.progress || '75%'`: an absent or empty attribute falls back. */
  function TargetWidth(progress: Option<string>): (w: string)
    ensures w != ""
    ensures progress.Some? && progress.value != "" ==> w == progress.value
    ensures !(progress.Some? && progress.value != "") ==> w == DefaultProgress
  {
    if progress.Some? && progress.value != "" then progress.value else DefaultProgress
  }

  /** The callback for one entry of an observed bar; the 200 ms timer that
      sets the width is folded in. A bar without a fill gets no width. */
  function ObserveSkillBar(b: SkillBar, intersecting: bool): (r: SkillBar)
    requires b.observed
    ensures !intersecting ==> r == b
    ensures intersecting ==> !r.observed
    ensures intersecting && b.hasFill ==> r.fillWidth == Some(TargetWidth(b.progress))
    ensures intersecting && !b.hasFill ==> r.fillWidth == b.fillWidth
    ensures r.progress == b.progress && r.hasFill == b.hasFill
  {
    if intersecting then
      b.(fillWidth := if b.hasFill then Some(TargetWidth(b.progress)) else b.fillWidth,
         observed := false)
    else b
  }

  /** A history of entries; once a bar is unobserved, no more are delivered. */
  function ReplaySkillBar(b: SkillBar, hs: seq<bool>): SkillBar
    decreases |hs|
  {
    if |hs| == 0 then b
    else if b.observed then ReplaySkillBar(ObserveSkillBar(b, hs[0]), hs[1..])
    else b
  }

  /** The fill is set at most once: an observed bar ends unobserved with the
      target width exactly when some entry intersected, and otherwise is
      untouched. */
  lemma {:induction false} SkillBarFillsOnce(b: SkillBar, hs: seq<bool>)
    requires b.observed
    ensures var r := ReplaySkillBar(b, hs);
            if exists i :: 0 <= i < |hs| && hs[i] then
              !r.observed && (b.hasFill ==> r.fillWidth == Some(TargetWidth(b.progress)))
              && (!b.hasFill ==> r.fillWidth == b.fillWidth)
            else r == b
    decreases |hs|
  {
    if |hs| > 0 {
      if hs[0] {
        var next := ObserveSkillBar(b, true);
        assert ReplaySkillBar(b, hs) == ReplaySkillBar(next, hs[1..]);
        if |hs[1..]| > 0 {
          assert ReplaySkillBar(next, hs[1..]) == next;
        }
      } else {
        SkillBarFillsOnce(b, hs[1..]);
        if exists i :: 0 <= i < |hs| && hs[i] {
          var i :| 0 <= i < |hs| && hs[i];
          assert hs[1..][i - 1];
        } else {
          assert forall i :: 0 <= i < |hs[1..]| ==> !hs[1..][i] by {
            forall i | 0 <= i < |hs[1..]| ensures !hs[1..][i] { assert hs[1..][i] == hs[i + 1]; }
          }
        }
      }
    }
  }

  // ----- animations.js: the character split of initTextAnimations -----

  const CharStaggerMs: nat := 50

  /** One character span: its character, whether it has been shown, and its
      transition delay in milliseconds (`i * 0.05s`). */
  datatype CharSpan = CharSpan(c: char, shown: bool, delayMs: nat)

  datatype CharAnim = CharAnim(spans: seq<CharSpan>, observed: bool)

  /** The element's text becomes one hidden span per character, in order,
      each starting 50 ms after the one before. */
  function SplitChars(text: string): (a: CharAnim)
    ensures |a.spans| == |text| && a.observed
    ensures forall i :: 0 <= i < |text| ==>
              a.spans[i].c == text[i] && !a.spans[i].shown && a.spans[i].delayMs == CharStaggerMs * i
  {
    CharAnim(seq(|text|, i requires 0 <= i < |text| => CharSpan(text[i], false, CharStaggerMs * i)),
             true)
  }

  /** The text the spans spell out. */
  function SpanText(spans: seq<CharSpan>): string {
    seq(|spans|, i requires 0 <= i < |spans| => spans[i].c)
  }

  function ShowAll(spans: seq<CharSpan>): (r: seq<CharSpan>)
    ensures |r| == |spans|
    ensures forall i :: 0 <= i < |r| ==> r[i] == spans[i].(shown := true)
  {
    seq(|spans|, i requires 0 <= i < |spans| => spans[i].(shown := true))
  }

  /** The callback for one entry: an intersecting entry shows every span and
      stops observing. Only the visibility changes: each span keeps its
      character and its transition delay, so the reveal stays staggered. */
  function ObserveChars(a: CharAnim, intersecting: bool): (r: CharAnim)
    requires a.observed
    ensures !intersecting ==> r == a
    ensures intersecting ==> !r.observed && forall i :: 0 <= i < |r.spans| ==> r.spans[i].shown
    ensures SpanText(r.spans) == SpanText(a.spans)
    ensures |r.spans| == |a.spans|
    ensures forall i :: 0 <= i < |r.spans| ==>
              r.spans[i].c == a.spans[i].c && r.spans[i].delayMs == a.spans[i].delayMs
  {
    if intersecting then CharAnim(ShowAll(a.spans), false) else a
  }

  function ReplayChars(a: CharAnim, hs: seq<bool>): CharAnim
    decreases |hs|
  {
    if |hs| == 0 then a
    else if a.observed then ReplayChars(ObserveChars(a, hs[0]), hs[1..])
    else a
  }

  /** After any history the split text still spells the original text, and
      its characters are all shown or all hidden, together: all shown exactly
      when some entry intersected. Span `i` still holds the `i`th character
      and is still delayed by `50 * i` ms. */
  lemma {:induction false} CharsRevealTogether(text: string, hs: seq<bool>)
    ensures var r := ReplayChars(SplitChars(text), hs);
            && SpanText(r.spans) == text
            && |r.spans| == |text|
            && (forall i :: 0 <= i < |r.spans| ==>
                  (r.spans[i].shown <==> exists k :: 0 <= k < |hs| && hs[k]))
            && forall i :: 0 <= i < |r.spans| ==>
                 r.spans[i].c == text[i] && r.spans[i].delayMs == CharStaggerMs * i
  {
    CharsRevealFrom(SplitChars(text), hs);
  }

  lemma {:induction false} CharsRevealFrom(a: CharAnim, hs: seq<bool>)
    requires a.observed
    requires forall i :: 0 <= i < |a.spans| ==> !a.spans[i].shown
    ensures var r := ReplayChars(a, hs);
            && SpanText(r.spans) == SpanText(a.spans)
            && |r.spans| == |a.spans|
            && (forall i :: 0 <= i < |r.spans| ==>
                  (r.spans[i].shown <==> exists k :: 0 <= k < |hs| && hs[k]))
            && forall i :: 0 <= i < |r.spans| ==>
                 r.spans[i].c == a.spans[i].c && r.spans[i].delayMs == a.spans[i].delayMs
    decreases |hs|
  {
    if |hs| > 0 {
      if hs[0] {
        var next := ObserveChars(a, true);
        assert ReplayChars(a, hs) == ReplayChars(next, hs[1..]) == next;
      } else {
        CharsRevealFrom(a, hs[1..]);
        if exists k :: 0 <= k < |hs| && hs[k] {
          var k :| 0 <= k < |hs| && hs[k];
          assert hs[1..][k - 1];
        } else {
          assert forall k :: 0 <= k < |hs[1..]| ==> !hs[1..][k] by {
            forall k | 0 <= k < |hs[1..]| ensures !hs[1..][k] { assert hs[1..][k] == hs[k + 1]; }
          }
        }
      }
    }
  }
}

=== FILE: text.dfy ===
/** JavaScript whitespace and `String.prototype.trim`, as used by the chat
    widget's input handling, by `parseInt` and by the `\s` class of the
    widget's URL pattern. */
module Text {

  /** The ECMAScript WhiteSpace and LineTerminator code points: the set that
      `trim()` strips and the regular-expression class `\s` matches. */
  predicate IsSpace(c: char) {
    var n := c as int;
    n == 0x09 || n == 0x0A || n == 0x0B || n == 0x0C || n == 0x0D || n == 0x20
    || n == 0xA0 || n == 0x1680 || (0x2000 <= n <= 0x200A)
    || n == 0x2028 || n == 0x2029 || n == 0x202F || n == 0x205F
    || n == 0x3000 || n == 0xFEFF
  }

  predicate AllSpace(s: string) {
    forall i :: 0 <= i < |s| ==> IsSpace(s[i])
  }

  /** The first position at or after `i` that does not hold whitespace. */
  function SkipSpaces(s: string, i: nat): (k: nat)
    requires i <= |s|
    ensures i <= k <= |s|
    ensures forall j :: i <= j < k ==> IsSpace(s[j])
    ensures k < |s| ==> !IsSpace(s[k])
    decreases |s| - i
  {
    if i == |s| || !IsSpace(s[i]) then i else SkipSpaces(s, i + 1)
  }

  /** The position just after the last non-space character in `s[lo..hi]`,
      or `lo` when that range is all whitespace. */
  function BackOverSpaces(s: string, lo: nat, hi: nat): (k: nat)
    requires lo <= hi <= |s|
    ensures lo <= k <= hi
    ensures forall j :: k <= j < hi ==> IsSpace(s[j])
    ensures k > lo ==> !IsSpace(s[k - 1])
    decreases hi - lo
  {
    if hi == lo || !IsSpace(s[hi - 1]) then hi else BackOverSpaces(s, lo, hi - 1)
  }

  /** `s.trimStart()`: the suffix of `s` from its first non-space character. */
  function TrimStart(s: string): (r: string)
    ensures |r| <= |s| && r == s[|s| - |r|..]
    ensures forall j :: 0 <= j < |s| - |r| ==> IsSpace(s[j])
    ensures r == [] || !IsSpace(r[0])
  {
    s[SkipSpaces(s, 0)..]
  }

  /** `s.trim()`: the contiguous piece of `s` left once whitespace is removed
      from both ends; it is empty exactly when `s` is all whitespace. */
  function Trim(s: string): (r: string)
    ensures exists a, b :: 0 <= a <= b <= |s| && r == s[a..b]
                           && (forall j :: 0 <= j < a ==> IsSpace(s[j]))
                           && (forall j :: b <= j < |s| ==> IsSpace(s[j]))
    ensures r != [] ==> !IsSpace(r[0]) && !IsSpace(r[|r| - 1])
    ensures r == [] <==> AllSpace(s)
  {
    var a := SkipSpaces(s, 0);
    var b := BackOverSpaces(s, a, |s|);
    s[a..b]
  }

  /** Trimming an already trimmed string changes nothing. */
  lemma {:induction false} TrimIdempotent(s: string)
    ensures Trim(Trim(s)) == Trim(s)
  {
    var r := Trim(s);
    if r != [] {
      assert SkipSpaces(r, 0) == 0;
      assert BackOverSpaces(r, 0, |r|) == |r|;
    }
  }
}

=== FILE: typing.dfy ===
/** The typing effect of `initTextAnimations` in `animations.js`: an element
    with `data-typing` is emptied, then, after `data-typing-delay` ms, one
    character of its former text is appended every `data-typing-speed` ms.
    The tick after the last character stops the interval and, when
    `data-cursor` is `"true"`, appends a `|` cursor span.

    Timers are not modelled as time: the initial delay and the interval are
    computed, and the interval's firings are the `Tick` steps. */
module Typing {
  import opened Wrappers
  import opened Decimal
  import Text

  const DefaultSpeedMs: int := 100
  const DefaultDelayMs: int := 0
  const CursorText: string := "|"

  /** The string `parseInt` sees for a `dataset` entry: the attribute's value,
      or `"undefined"` when the attribute is absent. */
  function AttrText(attr: Option<string>): string {
    match attr
    case None => "undefined"
    case Some(v) => v
  }

  /** `parseInt(x) || fallback`: NaN and 0 are falsy and give the fallback. */
  function NumberOr(p: Parsed, fallback: int): (r: int)
    ensures p.Num? && p.n != 0 ==> r == p.n
    ensures (p.NaN? || p.n == 0) ==> r == fallback
  {
    match p
    case NaN => fallback
    case Num(n) => if n == 0 then fallback else n
  }

  /** The value passed to `setInterval`: the non-zero integer read from
      `data-typing-speed`, or 100. */
  function TypingSpeed(attr: Option<string>): (ms: int)
    ensures ms != 0
    ensures ms == DefaultSpeedMs || ParseInt(AttrText(attr)) == Num(ms)
    ensures ParseInt(AttrText(attr)).Num? && ParseInt(AttrText(attr)).n != 0 ==>
              ms == ParseInt(AttrText(attr)).n
  {
    NumberOr(ParseInt(AttrText(attr)), DefaultSpeedMs)
  }

  /** The initial delay: an integer read from `data-typing-delay`, or 0. */
  function TypingDelay(attr: Option<string>): (ms: int)
    ensures ms == DefaultDelayMs || ParseInt(AttrText(attr)) == Num(ms)
    ensures ParseInt(AttrText(attr)).Num? ==> ms == ParseInt(AttrText(attr)).n
  {
    NumberOr(ParseInt(AttrText(attr)), DefaultDelayMs)
  }

  /** `parseInt(undefined)` reads the text `"undefined"`, which has no
      digits. */
  lemma UndefinedIsNaN()
    ensures ParseInt(AttrText(None)) == NaN
  {
    var s := AttrText(None);
    assert !Text.IsSpace(s[0]);
    assert Text.SkipSpaces(s, 0) == 0;
    assert Text.TrimStart(s) == s;
    assert DigitValue(s[0]) == 36;
    assert DigitRun(s, 0, 10) == 0;
    assert ParseMagnitude(s) == None;
  }

  /** A missing attribute gives the defaults. */
  lemma MissingAttributesGiveDefaults()
    ensures TypingSpeed(None) == DefaultSpeedMs
    ensures TypingDelay(None) == DefaultDelayMs
  {
    UndefinedIsNaN();
  }

  /** Any non-zero speed written in decimal is used as written, and any delay
      is. */
  lemma WrittenAttributesAreRead(n: int)
    ensures n != 0 ==> TypingSpeed(Some(IntToString(n))) == n
    ensures n != 0 ==> TypingDelay(Some(IntToString(n))) == n
    ensures n == 0 ==> TypingSpeed(Some(IntToString(n))) == DefaultSpeedMs
  {
    ParseIntOfIntToString(n);
  }

  /** One typing element: its original text, what it shows now, the
      character index, whether the interval still runs, whether it asked for
      a cursor (`data-cursor === 'true'`) and whether the cursor is there. */
  datatype Typist = Typist(text: string, shown: string, index: nat, running: bool,
                           wantsCursor: bool, cursor: bool)

  /** What a typing element holds between ticks. */
  ghost predicate Valid(t: Typist) {
    && t.index <= |t.text|
    && t.shown == t.text[..t.index]
    && (!t.running ==> t.index == |t.text| && t.cursor == t.wantsCursor)
    && (t.running ==> !t.cursor)
  }

  /** The element after its text is cleared and before the first tick. */
  function StartTyping(text: string, cursorAttr: Option<string>): (t: Typist)
    ensures t.text == text && t.shown == [] && t.running && !t.cursor
    ensures t.wantsCursor <==> cursorAttr == Some("true")
  {
    Typist(text, [], 0, true, cursorAttr == Some("true"), false)
  }

  /** One firing of the interval: append the next character, or, after the
      last one, stop and add the cursor if it was asked for. */
  function Tick(t: Typist): (r: Typist)
    requires t.running
    ensures r.text == t.text && r.wantsCursor == t.wantsCursor
    ensures t.index < |t.text| ==> r.running && r.index == t.index + 1
                                   && r.shown == t.shown + [t.text[t.index]]
                                   && r.cursor == t.cursor
    ensures t.index >= |t.text| ==> !r.running && r.shown == t.shown && r.cursor == t.wantsCursor
  {
    if t.index < |t.text| then
      t.(shown := t.shown + [t.text[t.index]], index := t.index + 1)
    else
      t.(running := false, cursor := t.wantsCursor)
  }

  /** The element's `textContent`: the typed text, then the cursor span's. */
  function Displayed(t: Typist): string {
    t.shown + (if t.cursor then CursorText else "")
  }

  /** `n` firings of the interval; a cleared interval fires no more. */
  function Ticks(t: Typist, n: nat): Typist
    decreases n
  {
    if n == 0 || !t.running then t else Ticks(Tick(t), n - 1)
  }

  lemma TickKeepsValid(t: Typist)
    requires Valid(t) && t.running
    ensures Valid(Tick(t))
  {
    if t.index < |t.text| {
      assert t.text[..t.index + 1] == t.text[..t.index] + [t.text[t.index]];
    }
  }

  lemma {:induction false} TicksKeepValid(t: Typist, n: nat)
    requires Valid(t)
    ensures Valid(Ticks(t, n))
    ensures Ticks(t, n).text == t.text && Ticks(t, n).wantsCursor == t.wantsCursor
    decreases n
  {
    if n > 0 && t.running {
      TickKeepsValid(t);
      TicksKeepValid(Tick(t), n - 1);
    }
  }

  /** From any state, enough ticks finish the text. */
  lemma {:induction false} TicksFinish(t: Typist, n: nat)
    requires Valid(t)
    requires n > |t.text| - t.index
    ensures !Ticks(t, n).running
    decreases n
  {
    if t.running && t.index < |t.text| {
      TicksFinish(Tick(t), n - 1);
    }
  }

  /** While the interval runs, the element shows a prefix of its text; once
      `|text| + 1` ticks have fired it shows the whole text, followed by the
      cursor exactly when `data-cursor` is `"true"`. */
  lemma TypingCompletes(text: string, cursorAttr: Option<string>, n: nat)
    ensures var t := Ticks(StartTyping(text, cursorAttr), n);
            && |t.shown| <= |text| && t.shown == text[..|t.shown|]
            && (n > |text| ==>
                  !t.running && Displayed(t) == text + (if cursorAttr == Some("true") then CursorText else ""))
  {
    var t0 := StartTyping(text, cursorAttr);
    TicksKeepValid(t0, n);
    if n > |text| {
      TicksFinish(t0, n);
      assert text[..|text|] == text;
    }
  }
}

=== FILE: wrappers.dfy ===
/** The optional-value datatype used across the model for values that may be
    absent in the page: a missing DOM element, an unset data attribute, a
    conversation id that has not been generated yet. */
module Wrappers {

  datatype Option<+T> = None | Some(value: T)
}
